=== FILE: README.md ===
# Menu management: a Dafny model

This project models the core of a small menu-management system.

- **The API.** It creates, reads, updates and deletes `Menu` records. A field validator sits in front of it, and a global exception handler sits behind it.
- **The login.** A fixed-credential login issues JWT bearer tokens.
- **The client form.** A browser form creates and edits menus.

Everything is written as pure functions over immutable data. The table is a `map<int, Menu>` with a fresh-id counter.

The modules follow the source's layers:

| module | models |
|---|---|
| `Text` | the string primitives both sides rely on: .NET `char.IsWhiteSpace` and JavaScript `trim`; ordinal `Contains`; UTF-16 length; `int.ToString`; JavaScript `parseInt` without a radix |
| `Entities`, `Dtos` | the `Menu` entity, `MenuStatus` and the transfer shapes, with their defaults |
| `Exceptions` | the exception hierarchy as one tagged datatype, and the `NotFoundException` message format |
| `Validators` | `CreateMenuValidator` and `UpdateMenuValidator` |
| `Responses` | the `ApiResponse<T>` envelope and action results |
| `Repository` | `MenuRepository` over the map |
| `MenuService` | the rule layer: the check-then-act duplicate-name rule and typed `NotFound` / `BusinessValidation` failures |
| `Pipeline` | validation followed by the service, request after request, with the store invariant |
| `MenuController`, `AuthController` | the actions' mapping from outcome to status code and envelope |
| `Middleware` | `GlobalExceptionMiddleware` |
| `JwtService` | settings validation, claim construction, the argument guards, token issue, and a token validation that never throws |
| `CadastroMenu` | the client page's `validate`, the payload built on submit, and `handleChange` |

## Modelling assumptions

- **Name comparison.** Name equality and `Contains` are ordinal and case-sensitive. The database collation is not visible, so this is an assumption.
- **Time.** `DateTime.UtcNow` is read by the caller and passed in, one parameter per read. Times are integers, in seconds for the token.
- **Lengths and whitespace.** `MaximumLength` counts UTF-16 code units. A character above U+FFFF counts twice. "Blank" on the server uses .NET's whitespace set; `trim` on the client uses ECMAScript's set. The two sets differ on U+0085 and U+FEFF.
- **Parsing the order.** `parseInt` reads optional leading whitespace and one sign. A `0x` prefix switches to hexadecimal. It then reads the longest run of digits, and gives `NaN` (`None`) when there is none.
- **Stored invariant.** The ids in the store are below the counter, and each row's id is its key.
- **The model follows the code on these points:**
  - The two timestamps of a new menu come from two clock reads (`MenuService.cs:53-54`). `CriadoEm == AtualizadoEm` therefore holds exactly when those reads agree.
  - `AtualizadoEm >= CriadoEm` is proved only for a clock that does not go backwards.
  - Any status string other than `"Ativo"` is stored as `Inativo`. The validator is what keeps other strings out.
  - The login announces `ExpiresIn = 3600` whatever `ExpirationMinutes` is configured to.

## Model

Paths are relative to the repository root.

| member | source | states |
|---|---|---|
| Text.JsTrim | menu_poc/client/src/pages/CadastroMenu.tsx:56 | `trim()` yields a contiguous slice of its input with only JavaScript whitespace before and after it. The slice is empty exactly when every character is whitespace; otherwise it starts and ends with non-whitespace. |
| Text.JsTrimOfPadded | menu_poc/client/src/pages/CadastroMenu.tsx:85 | Trimming whitespace padding around a text that neither starts nor ends with whitespace gives back exactly that text. |
| Text.WhiteSpaceSetsDiffer | MenuManagementAPI/MenuManagementAPI.Infrastructure/Services/JwtService.cs:227 | The .NET whitespace test behind `IsNullOrWhiteSpace` and the JavaScript one behind `trim` differ on exactly U+0085 (only .NET) and U+FEFF (only JavaScript). |
| Text.BlankAgreesWithTrim | menu_poc/client/src/pages/CadastroMenu.tsx:56 | For strings without U+0085 or U+FEFF, the server's blank test holds exactly when the client's `trim()` is empty. |
| Text.Contains | MenuManagementAPI/MenuManagementAPI.Infrastructure/Repositories/MenuRepository.cs:28 | `Nome.Contains(term)` is true exactly when the term occurs in the name as a contiguous substring. |
| Text.Utf16Length | MenuManagementAPI/MenuManagementAPI.Application/Validators/CreateMenuValidator.cs:15 | The length `MaximumLength` measures lies between the character count and twice it. It equals the character count exactly when every character is in the Basic Multilingual Plane; one character outside it counts 2. |
| Text.Utf16LengthAppend | MenuManagementAPI/MenuManagementAPI.Application/Validators/CreateMenuValidator.cs:15 | The UTF-16 length of a concatenation is the sum of the lengths of its parts. |
| Text.ParseIntOfIntToString | menu_poc/client/src/pages/CadastroMenu.tsx:40 | `parseInt(String(n))` gives back `n` for every integer, negative ones included. |
| Text.IntToString | menu_poc/client/src/pages/CadastroMenu.tsx:40 | `String(n)` of an integer is non-empty, starts with a minus sign exactly when `n` is negative, and is decimal digits after that sign, with no leading zero unless the number is 0. |
| Text.JsParseInt | menu_poc/client/src/pages/CadastroMenu.tsx:60 | `parseInt` of a string starting with neither whitespace nor a sign is the plain digit read, hexadecimal after `0x`, and `NaN` without a leading digit. A leading plus is skipped. A leading minus negates the digit read that follows and gives `NaN` when no digit follows. |
| Text.JsParseIntSkipsWhiteSpace | menu_poc/client/src/pages/CadastroMenu.tsx:60 | Whitespace in front of the number does not change what `parseInt` reads. |
| Text.EqualsIgnoreCaseIsEquivalence | MenuManagementAPI/MenuManagementAPI.Infrastructure/Services/JwtService.cs:175 | Case-insensitive comparison is reflexive, symmetric and transitive. |
| Entities.StatusValue | MenuManagementAPI/MenuManagementAPI.Domain/Entities/Menu.cs:57-62 | `Ativo` has the value 1 and `Inativo` the value 2, and no other member has either value. |
| Entities.StatusOfValue | MenuManagementAPI/MenuManagementAPI.Domain/Entities/Menu.cs:52-63 | An integer names a member exactly when it is 1 or 2. That member's value is the integer. |
| Entities.StatusValueRoundTrip | MenuManagementAPI/MenuManagementAPI.Domain/Entities/Menu.cs:57-62 | Storing a status as its integer and reading it back gives the same status. |
| Entities.NewMenu | MenuManagementAPI/MenuManagementAPI.Domain/Entities/Menu.cs:11-46 | A new `Menu` has empty `Nome` and `Icone`, null `Descricao` and status `Ativo`. Each timestamp is its own clock read. |
| Dtos.DefaultCreateMenuDto | MenuManagementAPI/MenuManagementAPI.Application/DTOs/MenuDto.cs:21-28 | An omitted create body has status `"Ativo"`, empty strings, order 0 and no description. |
| Dtos.DefaultUpdateMenuDto | MenuManagementAPI/MenuManagementAPI.Application/DTOs/MenuDto.cs:33-40 | An omitted update body has the same defaults, status `"Ativo"` included. |
| Dtos.RequestShapesCorrespond | MenuManagementAPI/MenuManagementAPI.Application/DTOs/MenuDto.cs:21-40 | Create and update bodies carry the same five fields. Converting either into the other and back loses nothing, and their defaults correspond. |
| Exceptions.Message | MenuManagementAPI/MenuManagementAPI.Domain/Exceptions/DomainException.cs:6-36 | A `BusinessValidationException` or a plain `DomainException` carries its message verbatim. A `NotFoundException` message starts with the entity name and " com ID '", ends with "' não foi encontrado.", and the text between them is exactly the key in decimal, so it parses back to the key. |
| Exceptions.NotFoundMessageDeterminesKey | MenuManagementAPI/MenuManagementAPI.Domain/Exceptions/DomainException.cs:22-23 | For one entity, two `NotFoundException` messages are equal only when their keys are equal. The message encodes the key without loss. |
| Validators.PropertyName | MenuManagementAPI/MenuManagementAPI.Application/Validators/CreateMenuValidator.cs:13-30 | Every validated property reports under a non-empty, capitalised name. |
| Validators.PropertyNamesDistinct | MenuManagementAPI/MenuManagementAPI.Application/Validators/CreateMenuValidator.cs:13-30 | Two properties report under the same name exactly when they are the same property. |
| Validators.RequiredTextFailures | MenuManagementAPI/MenuManagementAPI.Application/Validators/CreateMenuValidator.cs:13-15 | `NotEmpty().MaximumLength(255)` reports nothing exactly when the text is not blank and has at most 255 units. Every failure names the rule's own property. |
| Validators.FieldFailures | MenuManagementAPI/MenuManagementAPI.Application/Validators/CreateMenuValidator.cs:11-31 | The five rules report nothing exactly when every field is acceptable. Each property has a failure exactly when its own rule rejects it: a blank or over-long name or icon, `Ordem <= 0`, a non-empty description over 1000 units, or a status other than the two exact strings. |
| Validators.ValidateCreate | MenuManagementAPI/MenuManagementAPI.Application/Validators/CreateMenuValidator.cs:9-32 | A create body passes exactly when all five field rules hold. |
| Validators.ValidateUpdate | MenuManagementAPI/MenuManagementAPI.Application/Validators/CreateMenuValidator.cs:37-60 | The update validator reports, for every body, what the create validator reports for the same fields. It accepts exactly the same inputs. |
| Validators.RuleBoundaries | MenuManagementAPI/MenuManagementAPI.Application/Validators/CreateMenuValidator.cs:13-30 | A name of 255 units passes and one of 256 fails. A name of spaces fails. An empty description passes. `"ativo"` is not a valid status. |
| Responses.SuccessResponse | MenuManagementAPI/MenuManagementAPI.Application/Common/ApiResponse.cs:36-44 | A success envelope carries the data and no errors. It keeps a given message, or uses the default message when none is given. |
| Responses.ErrorResponse | MenuManagementAPI/MenuManagementAPI.Application/Common/ApiResponse.cs:49-57 | An error envelope carries the message and errors it was given, and never data. |
| Responses.EnvelopeKinds | MenuManagementAPI/MenuManagementAPI.Application/Common/ApiResponse.cs:36-57 | The two constructors never build the same envelope. Any well-formed envelope is rebuilt by the constructor its `success` flag names. |
| Responses.InternalError | MenuManagementAPI/MenuManagementAPI.Presentation/Controllers/MenuController.cs:36 | The catch-all `500` carries only the fixed "Erro interno do servidor" message. |
| Repository.SortByOrdem | MenuManagementAPI/MenuManagementAPI.Infrastructure/Repositories/MenuRepository.cs:18 | `OrderBy(Ordem)` returns a permutation of its input, non-decreasing in `Ordem`. It promises nothing about equal orders. |
| Repository.GetAll | MenuManagementAPI/MenuManagementAPI.Infrastructure/Repositories/MenuRepository.cs:15-20 | Lists every stored menu exactly once, sorted by `Ordem`. The result is a permutation of the table. |
| Repository.WhereNomeContains | MenuManagementAPI/MenuManagementAPI.Infrastructure/Repositories/MenuRepository.cs:28 | Keeps exactly the menus whose name contains the term, and invents none. |
| Repository.SearchByName | MenuManagementAPI/MenuManagementAPI.Infrastructure/Repositories/MenuRepository.cs:22-34 | Lists exactly the stored menus whose name contains the term, or all of them when the term is blank. Each appears once, sorted by `Ordem`. |
| Repository.BlankSearchIsGetAll | MenuManagementAPI/MenuManagementAPI.Infrastructure/Repositories/MenuRepository.cs:26-33 | A blank term returns the same sequence as `GetAllAsync`. |
| Repository.GetById | MenuManagementAPI/MenuManagementAPI.Infrastructure/Repositories/MenuRepository.cs:36-40 | Finds the stored menu with that id, or null exactly when no stored menu has it. |
| Repository.AnyNamed | MenuManagementAPI/MenuManagementAPI.Infrastructure/Repositories/MenuRepository.cs:44-51 | True exactly when some row has that exact name and is not the excluded id. |
| Repository.ExistsByName | MenuManagementAPI/MenuManagementAPI.Infrastructure/Repositories/MenuRepository.cs:42-52 | True exactly when some stored menu has that exact name and, if an id is excluded, a different id. |
| Repository.Create | MenuManagementAPI/MenuManagementAPI.Infrastructure/Repositories/MenuRepository.cs:54-59 | Adds the menu under a fresh id, changes nothing else, and returns it with that id. |
| Repository.Update | MenuManagementAPI/MenuManagementAPI.Infrastructure/Repositories/MenuRepository.cs:61-66 | Replaces the row with the menu's id and leaves every other row and the counter alone. |
| Repository.Delete | MenuManagementAPI/MenuManagementAPI.Infrastructure/Repositories/MenuRepository.cs:68-79 | Returns true exactly when the id was present. It then removes only that row; otherwise the store is unchanged. |
| Repository.CreateThenDelete | MenuManagementAPI/MenuManagementAPI.Infrastructure/Repositories/MenuRepository.cs:54-79 | A created menu is found by its id and by its name, and no other row changes. Deleting it again succeeds, after which its id is absent and the table's rows are as before. |
| MenuService.DuplicateNameMessage | MenuManagementAPI/MenuManagementAPI.Application/Services/MenuService.cs:43 | The create-time duplicate message ends with the offending name in single quotes. |
| MenuService.DuplicateOtherNameMessage | MenuManagementAPI/MenuManagementAPI.Application/Services/MenuService.cs:68 | The update-time duplicate message ends with the offending name in single quotes. |
| MenuService.DuplicateMessagesIdentifyName | MenuManagementAPI/MenuManagementAPI.Application/Services/MenuService.cs:43-68 | Two duplicate messages of one kind are equal exactly when the names are, and a create message never equals an update message. |
| MenuService.StatusName | MenuManagementAPI/MenuManagementAPI.Application/Services/MenuService.cs:102 | A DTO's status is one of the two names, and it is `"Ativo"` exactly for `Ativo`. |
| MenuService.StatusFromName | MenuManagementAPI/MenuManagementAPI.Application/Services/MenuService.cs:52 | Only the exact string `"Ativo"` selects `Ativo`. |
| MenuService.StatusNameRoundTrip | MenuManagementAPI/MenuManagementAPI.Application/Services/MenuService.cs:102 | The two accepted status strings survive being read and rendered again, and so does every status. |
| MenuService.MapToDto | MenuManagementAPI/MenuManagementAPI.Application/Services/MenuService.cs:93-106 | Every field is copied. The status string is `"Ativo"` exactly for `Ativo` and `"Inativo"` exactly for `Inativo`, so it reads back as the entity's status. |
| MenuService.MapToDtoInjective | MenuManagementAPI/MenuManagementAPI.Application/Services/MenuService.cs:93-106 | Two menus with the same DTO are the same menu: mapping loses nothing. |
| MenuService.MapAll | MenuManagementAPI/MenuManagementAPI.Application/Services/MenuService.cs:23 | `Select(MapToDto)` maps element by element and keeps length and order. |
| MenuService.GetAll | MenuManagementAPI/MenuManagementAPI.Application/Services/MenuService.cs:20-24 | Returns the DTO of every stored menu, each once and sorted by `Ordem`, and nothing else. |
| MenuService.SearchByName | MenuManagementAPI/MenuManagementAPI.Application/Services/MenuService.cs:26-30 | Returns the DTO of exactly those stored menus that match a non-blank term, or all of them for a blank term. Each appears once, sorted by `Ordem`. |
| MenuService.GetById | MenuManagementAPI/MenuManagementAPI.Application/Services/MenuService.cs:32-36 | Succeeds exactly when the id is stored. Otherwise it fails with `NotFound("Menu", id)`. |
| MenuService.Create | MenuManagementAPI/MenuManagementAPI.Application/Services/MenuService.cs:38-59 | Fails with the duplicate-name `BusinessValidation` exactly when the name is taken, and the store is then untouched. On success it adds one record carrying the body's fields, the mapped status and the two clock reads. |
| MenuService.Edited | MenuManagementAPI/MenuManagementAPI.Application/Services/MenuService.cs:71-76 | The tracked entity takes the body's five fields and the new `AtualizadoEm`. It keeps its `Id` and `CriadoEm`. |
| MenuService.Update | MenuManagementAPI/MenuManagementAPI.Application/Services/MenuService.cs:61-80 | An absent id gives `NotFound` first. A name another menu holds gives `BusinessValidation`. Otherwise only that record changes, only in its editable fields. |
| MenuService.Delete | MenuManagementAPI/MenuManagementAPI.Application/Services/MenuService.cs:82-91 | Fails with `NotFound` exactly when the id is absent. Otherwise it returns true, removes only that record and keeps every other one. |
| MenuService.CreateKeepsNamesDistinct | MenuManagementAPI/MenuManagementAPI.Application/Services/MenuService.cs:41-44 | The duplicate-name check keeps names pairwise distinct across a create. |
| MenuService.UpdateKeepsNamesDistinct | MenuManagementAPI/MenuManagementAPI.Application/Services/MenuService.cs:66-69 | The duplicate-name check, which excludes the record's own id, keeps names pairwise distinct across an update. |
| MenuService.UpdateToOwnNameSucceeds | MenuManagementAPI/MenuManagementAPI.Application/Services/MenuService.cs:66 | Updating a record to its current name is never refused. |
| MenuService.CreateThenGetById | MenuManagementAPI/MenuManagementAPI.Application/Services/MenuService.cs:57-58 | Reading a created menu back by its id gives the DTO that create returned. |
| MenuService.CreatedStatusRoundTrip | MenuManagementAPI/MenuManagementAPI.Application/Services/MenuService.cs:52 | An accepted status string comes back unchanged from create-then-map, and an omitted status comes back as `"Ativo"`. |
| MenuService.CreatedTimestamps | MenuManagementAPI/MenuManagementAPI.Application/Services/MenuService.cs:53-54 | A new menu's two timestamps agree exactly when the two clock reads agree. |
| Pipeline.Handle | MenuManagementAPI/MenuManagementAPI.Presentation/Program.cs:81-82 | A request is rejected exactly when its body fails the validator. A rejected or failed request leaves the store unchanged. The service raises only `NotFound`, for an absent id on update or delete, or `BusinessValidation`. |
| Pipeline.Run | MenuManagementAPI/MenuManagementAPI.Presentation/Program.cs:81-82 | Handling a sequence of requests yields one outcome per request and leaves a well-formed store. |
| Pipeline.RunAppend | MenuManagementAPI/MenuManagementAPI.Presentation/Program.cs:81-82 | Requests are handled one after another: one more request is handled against the store the earlier ones left, and its outcome is appended after theirs. |
| Pipeline.RunPrefix | MenuManagementAPI/MenuManagementAPI.Presentation/Program.cs:81-82 | The outcomes of the first n requests are the first n outcomes of the whole run. Later requests do not change earlier answers. |
| Pipeline.RunOutcomeAt | MenuManagementAPI/MenuManagementAPI.Presentation/Program.cs:81-82 | The i-th outcome is exactly what the i-th request gets when handled against the store the requests before it left. |
| Pipeline.AcceptedStatusKept | MenuManagementAPI/MenuManagementAPI.Application/Validators/CreateMenuValidator.cs:28-30 | A status the validator accepts is stored so that it reads back as the same string. |
| Pipeline.EmptySatisfiesInv | MenuManagementAPI/MenuManagementAPI.Infrastructure/Data/ApplicationDbContext.cs:55 | The empty table satisfies the invariant: distinct names, and every row passes the validator. |
| Pipeline.CreateKeepsInv | MenuManagementAPI/MenuManagementAPI.Application/Services/MenuService.cs:41-57 | A create of a validated body keeps names distinct and every row valid. |
| Pipeline.UpdateKeepsInv | MenuManagementAPI/MenuManagementAPI.Application/Services/MenuService.cs:63-78 | An update with a validated body keeps names distinct and every row valid. |
| Pipeline.DeleteKeepsInv | MenuManagementAPI/MenuManagementAPI.Application/Services/MenuService.cs:82-90 | A delete keeps names distinct and every row valid. |
| Pipeline.HandleKeepsInv | MenuManagementAPI/MenuManagementAPI.Presentation/Program.cs:81-82 | Any single request, accepted or not, keeps the invariant. |
| Pipeline.RunKeepsInv | MenuManagementAPI/MenuManagementAPI.Infrastructure/Data/ApplicationDbContext.cs:55 | Without a unique index, the check-then-act rule alone keeps names distinct over any sequence of requests run one after another. |
| Pipeline.HandleKeepsTimestampsOrdered | MenuManagementAPI/MenuManagementAPI.Application/Services/MenuService.cs:76 | With a clock that does not go backwards, every row keeps `AtualizadoEm >= CriadoEm`. |
| Middleware.MessagesFor | MenuManagementAPI/MenuManagementAPI.Presentation/Middleware/GlobalExceptionMiddleware.cs:41-45 | A message is in a property's list exactly when some failure on that property carries it; the list is non-empty exactly when some failure names the property. |
| Middleware.MessagesForAppend | MenuManagementAPI/MenuManagementAPI.Presentation/Middleware/GlobalExceptionMiddleware.cs:41-45 | The messages of a property over two runs of failures are those of the first run followed by those of the second: order and duplicates are kept. |
| Middleware.MessagesForSingle | MenuManagementAPI/MenuManagementAPI.Presentation/Middleware/GlobalExceptionMiddleware.cs:41-45 | A single failure contributes its message to its own property's list and nothing to any other. |
| Middleware.GroupErrors | MenuManagementAPI/MenuManagementAPI.Presentation/Middleware/GlobalExceptionMiddleware.cs:40-46 | The errors map has one key per distinct property name. Each key holds that property's messages in order. |
| Middleware.GroupingKeepsEveryMessage | MenuManagementAPI/MenuManagementAPI.Presentation/Middleware/GlobalExceptionMiddleware.cs:40-46 | Every failure's message appears under its property's key. |
| Middleware.HandleException | MenuManagementAPI/MenuManagementAPI.Presentation/Middleware/GlobalExceptionMiddleware.cs:34-68 | Validation gives 400 with "Erro de validação" and the grouped errors. `NotFound` gives 404, matched before the general domain case. Business and other domain exceptions give 400 with their message. Anything else gives the generic 500. Every envelope is a failure. |
| Middleware.UnrecognisedExceptionsLookAlike | MenuManagementAPI/MenuManagementAPI.Presentation/Middleware/GlobalExceptionMiddleware.cs:64-67 | The 500 response does not depend on which unrecognised exception caused it. |
| MenuController.Catch | MenuManagementAPI/MenuManagementAPI.Presentation/Controllers/MenuController.cs:121-133 | An action turns a caught `NotFound` into 404 and a caught business failure into 400, each with the exception's message. Anything it does not catch becomes the generic 500. |
| MenuController.GetAll | MenuManagementAPI/MenuManagementAPI.Presentation/Controllers/MenuController.cs:26-38 | 200 with the list on success. Any exception gives 500. |
| MenuController.SearchArgument | MenuManagementAPI/MenuManagementAPI.Presentation/Controllers/MenuController.cs:49 | A missing `nome` is searched as the empty string. |
| MenuController.Search | MenuManagementAPI/MenuManagementAPI.Presentation/Controllers/MenuController.cs:45-57 | 200 with the list on success. Any exception gives 500. |
| MenuController.GetById | MenuManagementAPI/MenuManagementAPI.Presentation/Controllers/MenuController.cs:65-81 | 200 on success. `NotFound` gives 404 with its message. Anything else gives 500. |
| MenuController.Create | MenuManagementAPI/MenuManagementAPI.Presentation/Controllers/MenuController.cs:89-105 | 201 on success, with the created id as the route id. A business failure gives 400. Anything else gives 500. |
| MenuController.Update | MenuManagementAPI/MenuManagementAPI.Presentation/Controllers/MenuController.cs:114-134 | 200 on success. `NotFound` gives 404 and a business failure 400, each with its message. Anything else gives 500. |
| MenuController.Delete | MenuManagementAPI/MenuManagementAPI.Presentation/Controllers/MenuController.cs:142-158 | 200 with the service's boolean. `NotFound` gives 404. Anything else gives 500. |
| MenuController.GetAllEndpoint | MenuManagementAPI/MenuManagementAPI.Presentation/Controllers/MenuController.cs:30-31 | Always 200. The list is sorted by `Ordem`, has no id twice, contains the DTO of every stored menu, and each entry is the DTO of the stored menu with its id. |
| MenuController.SearchEndpoint | MenuManagementAPI/MenuManagementAPI.Presentation/Controllers/MenuController.cs:49-50 | Always 200. The list is sorted by `Ordem` and has no id twice. Each entry is the DTO of a stored menu that matches the term, and every stored menu that matches is listed; a missing or blank term matches everything. |
| MenuController.SearchWithoutNameListsAll | MenuManagementAPI/MenuManagementAPI.Presentation/Controllers/MenuController.cs:49 | A search without `nome` lists the same menus, in the same order, as `GET /api/menu`. |
| MenuController.GetByIdEndpoint | MenuManagementAPI/MenuManagementAPI.Presentation/Controllers/MenuController.cs:69-75 | 200 exactly for a stored id. Otherwise 404 with the `NotFound` message for that id. |
| MenuController.CreateEndpoint | MenuManagementAPI/MenuManagementAPI.Presentation/Controllers/MenuController.cs:93-98 | 201 exactly when the name is free, and `GET` on the route id returns the created menu. Otherwise 400 with the duplicate message and the store unchanged. |
| MenuController.UpdateEndpoint | MenuManagementAPI/MenuManagementAPI.Presentation/Controllers/MenuController.cs:118-128 | 404 exactly for an absent id. 400 exactly when another menu holds the name. 200 otherwise. The store changes only on 200. |
| MenuController.DeleteEndpoint | MenuManagementAPI/MenuManagementAPI.Presentation/Controllers/MenuController.cs:146-152 | 200 with true exactly for a stored id, which is then removed. Otherwise 404 and no change. |
| MenuController.CaughtKindsAgreeWithMiddleware | MenuManagementAPI/MenuManagementAPI.Presentation/Controllers/MenuController.cs:121-128 | Where an action catches an exception kind, it answers with the same status and message as the global middleware. |
| MenuController.UncaughtDomainExceptionIsInternalError | MenuManagementAPI/MenuManagementAPI.Presentation/Controllers/MenuController.cs:96-104 | `Create` does not catch `NotFound`, so it answers 500 where the middleware would answer 404. |
| MenuController.InternalErrorsRevealNothing | MenuManagementAPI/MenuManagementAPI.Presentation/Controllers/MenuController.cs:129-133 | No action's 500 depends on the exception that caused it. |
| AuthController.TokenRequestFor | MenuManagementAPI/MenuManagementAPI.Presentation/Controllers/AuthController.cs:35 | An accepted login asks for a token for user id `"1"`, the username, and the single role `"Admin"`. |
| AuthController.Login | MenuManagementAPI/MenuManagementAPI.Presentation/Controllers/AuthController.cs:25-64 | 401 exactly when the credentials are not `admin`/`admin123`. 200 with the token, the echoed username and `ExpiresIn = 3600` exactly when issuing succeeds. Otherwise 500. |
| AuthController.RejectedLoginIssuesNoToken | MenuManagementAPI/MenuManagementAPI.Presentation/Controllers/AuthController.cs:51-54 | A rejected login never depends on the token service, so no token is generated. |
| AuthController.LoginWith | MenuManagementAPI/MenuManagementAPI.Presentation/Controllers/AuthController.cs:33-35 | Wired to the JWT service, login succeeds exactly for the fixed credentials when issuing for user `"1"` succeeds. |
| AuthController.AnnouncedLifetimeMatchesSettings | MenuManagementAPI/MenuManagementAPI.Presentation/Controllers/AuthController.cs:41 | The announced 3600 seconds is the token's real lifetime exactly when `ExpirationMinutes` is the default 60. |
| AuthController.ValidateToken | MenuManagementAPI/MenuManagementAPI.Presentation/Controllers/AuthController.cs:75-98 | 200 with whether a principal came back, and the matching message. Any exception gives 500. |
| AuthController.ValidateTokenWith | MenuManagementAPI/MenuManagementAPI.Presentation/Controllers/AuthController.cs:81-88 | A null or blank token gives the generic 500; any other token gives 200. The 200 carries true and "Token válido" exactly for a validated HS256 token, and false and "Token inválido" otherwise. |
| JwtService.ValidateSettings | MenuManagementAPI/MenuManagementAPI.Infrastructure/Services/JwtService.cs:225-241 | Settings pass exactly when they are acceptable. Otherwise the first failing check, in source order (secret, secret length, issuer, audience, expiry), names the error. |
| JwtService.Construct | MenuManagementAPI/MenuManagementAPI.Infrastructure/Services/JwtService.cs:60-71 | Construction succeeds exactly when options are given and their settings validate. A failure is the null-argument guard or the settings error. |
| JwtService.RoleClaims | MenuManagementAPI/MenuManagementAPI.Infrastructure/Services/JwtService.cs:219 | One role claim per role, in order. |
| JwtService.BuildClaims | MenuManagementAPI/MenuManagementAPI.Infrastructure/Services/JwtService.cs:206-223 | NameIdentifier, Name, sub, jti and iat come first, in that order, followed by the roles. With null roles there are exactly five claims. |
| JwtService.FindFirst | MenuManagementAPI/MenuManagementAPI.Infrastructure/Services/JwtService.cs:121 | Gives the value of the first claim of that type, or null exactly when there is none. |
| JwtService.ClaimsRoundTrip | MenuManagementAPI/MenuManagementAPI.Infrastructure/Services/JwtService.cs:206-223 | The built claims give back the user id, the username and exactly the roles, in order. |
| JwtService.GuardNotBlank | MenuManagementAPI/MenuManagementAPI.Infrastructure/Services/JwtService.cs:99-100 | A guard throws exactly for a null or whitespace argument: null gives `ArgumentNullException`, blank gives `ArgumentException`. |
| JwtService.GenerateToken | MenuManagementAPI/MenuManagementAPI.Infrastructure/Services/JwtService.cs:93-153 | The guards on `userId`, then `username`, throw first. Past them, a token is issued exactly when the library writes the descriptor, and it is that descriptor with the written text. A library failure becomes "Falha ao gerar token JWT". |
| JwtService.Descriptor | MenuManagementAPI/MenuManagementAPI.Infrastructure/Services/JwtService.cs:124-138 | The signed descriptor carries the configured issuer and audience, the built claims, the third clock read as not-before, and an expiry `ExpirationMinutes` after the second clock read. |
| JwtService.TokenLifetime | MenuManagementAPI/MenuManagementAPI.Infrastructure/Services/JwtService.cs:129-136 | With agreeing clock reads, a token lives exactly the configured number of minutes. |
| JwtService.ValidateVerdict | MenuManagementAPI/MenuManagementAPI.Infrastructure/Services/JwtService.cs:155-204 | Validation never throws. It returns the principal only for a validated token whose algorithm, when known, is HS256 in any letter case; any other outcome gives null. |
| JwtService.AcceptedAlgorithmSpellings | MenuManagementAPI/MenuManagementAPI.Infrastructure/Services/JwtService.cs:175 | The algorithm check accepts exactly "HS256", "Hs256", "hS256" and "hs256". |
| JwtService.ValidateToken | MenuManagementAPI/MenuManagementAPI.Infrastructure/Services/JwtService.cs:106-113 | Throws exactly for a null or blank token. Otherwise it returns the verdict's principal. |
| JwtService.GetUserIdFromToken | MenuManagementAPI/MenuManagementAPI.Infrastructure/Services/JwtService.cs:116-122 | Gives the NameIdentifier of a valid token's principal, or null for an invalid one. A blank token throws. |
| JwtService.UserIdOfIssuedToken | MenuManagementAPI/MenuManagementAPI.Infrastructure/Services/JwtService.cs:116-122 | For the claims the service issued, the user id read back is the one the token was issued for. |
| CadastroMenu.Validate | menu_poc/client/src/pages/CadastroMenu.tsx:53-71 | An error for `nome` and `icone` exactly when they trim to empty, and for `ordem` exactly when it is empty, `NaN` or not positive. Each carries its message. The result is true exactly when there is no error. |
| CadastroMenu.Payload | menu_poc/client/src/pages/CadastroMenu.tsx:84-90 | Sends the trimmed, non-empty name and icon, a trimmed description that is absent when empty, the parsed positive order, and the status as selected. |
| CadastroMenu.MenuIdOf | menu_poc/client/src/pages/CadastroMenu.tsx:13 | A missing or empty `id` parameter gives null. Otherwise the id is its `parseInt`. |
| CadastroMenu.Submit | menu_poc/client/src/pages/CadastroMenu.tsx:76-100 | Something is sent exactly when `validate` passes. It is an update to `menuId` exactly when `menuId` is truthy, and a create otherwise. |
| CadastroMenu.WithField | menu_poc/client/src/pages/CadastroMenu.tsx:113 | The named field holds the new value and every other field keeps its value. |
| CadastroMenu.FieldValuesDetermineForm | menu_poc/client/src/pages/CadastroMenu.tsx:113 | Two forms are equal exactly when all five fields hold the same values, so the frame above fixes the new form completely. |
| CadastroMenu.HandleChange | menu_poc/client/src/pages/CadastroMenu.tsx:112-122 | The named field takes the value and loses any truthy error. Every other field and every other error is kept. |
| CadastroMenu.ChangeClearsValidationError | menu_poc/client/src/pages/CadastroMenu.tsx:115-120 | After `validate`, changing a field removes its error outright. |
| CadastroMenu.FormOf | menu_poc/client/src/pages/CadastroMenu.tsx:38-44 | Loading a menu copies name, icon and status, shows a missing description as empty, and writes the order as text that `parseInt` reads back as the order. |
| CadastroMenu.OrdemOfFormReadsBack | menu_poc/client/src/pages/CadastroMenu.tsx:40 | A stored positive order shown in the form parses back to itself and passes the order check. |
| CadastroMenu.EditWithoutChangesRoundTrip | menu_poc/client/src/pages/CadastroMenu.tsx:38-44 | Opening a stored menu and saving it unchanged passes `validate`. It sends back the menu's order and status, and its name and icon when they have no surrounding whitespace. |
| CadastroMenu.FormOfValid | menu_poc/client/src/pages/CadastroMenu.tsx:38-71 | The form filled from such a stored menu passes every rule of `validate`, and its name and icon are their own trims. |
| CadastroMenu.NextLineNameIsBlankOnlyOnServer | menu_poc/client/src/pages/CadastroMenu.tsx:56 | A name of U+0085 passes the page's check but is blank to the server's `NotEmpty`. |
| CadastroMenu.ParseIntIgnoresSuffix | menu_poc/client/src/pages/CadastroMenu.tsx:60 | `parseInt("12abc")` is 12. |
| CadastroMenu.SuffixedOrdemAccepted | menu_poc/client/src/pages/CadastroMenu.tsx:61 | `validate` therefore accepts the string "12abc". The order input is `type="number"`, which hands such text over as "", so a user cannot type it. |
| CadastroMenu.NumberInputValuesTruncated | menu_poc/client/src/pages/CadastroMenu.tsx:60-61 | Values a number input does hold are truncated: "1.5" and "1e3" both pass the order check and read as 1. |
| CadastroMenu.ParseIntReadsHex | menu_poc/client/src/pages/CadastroMenu.tsx:60 | `parseInt("0x1A")` is 26. |
| CadastroMenu.NonPositiveOrdemRejected | menu_poc/client/src/pages/CadastroMenu.tsx:61 | The orders "0", "-3" and "abc" are rejected. |

## Left out

- **Storage and concurrency.** EF Core, `DbContext` mapping, migrations and seeding are left out. So are `async`, `Task.Run` and cancellation. The concurrent check-then-act race on names is not modelled: uniqueness is proved only for requests run one after another.
- **Database failures.** The controller functions accept any exception in their failure outcome, so a database failure is covered there. The store model itself never fails.
- Repository.Update: requires the id to be present. Its only caller checks this first. The concurrency exception EF would raise for a missing row is not modelled.
- **Cryptography.** JWT signing, serialisation, parsing and signature checking (HS256, section 3.2 of RFC 7518) are done by `System.IdentityModel`. They are replaced by oracles: `write` for `WriteToken`, and a `Verdict` for `CanReadToken`/`ValidateToken`. Inbound claim-type mapping is part of that library and is not modelled.
- **Clock, ids, logging, envelope timestamp.** Clock reads, `Guid.NewGuid()` and the Unix `iat` are parameters. Logging and the envelope's `Timestamp` are omitted.
- **Serialisation.** JSON serialisation and camel-casing of the envelope are left out.
- **Integer width.** Ids and `Ordem` are unbounded integers, not 32-bit `int`. The store counter never wraps.
- JwtService.GenerateToken: does not model `DateTime.AddMinutes` running outside `DateTime`'s range. That would surface as the same `InvalidOperationException` the `write` oracle models.
- JwtService.ValidateVerdict: compares the algorithm case-insensitively for ASCII letters only, not under .NET's full ordinal case folding.
- CadastroMenu.Payload: `parseInt` is read as an exact integer. The rounding of very long digit strings to a JavaScript double is not modelled.
- **Nulls.** Null strings where the C# type is non-nullable are not modelled. Only `Descricao`, settings values and the guarded arguments are optional.
- **Auto-validation response.** How the framework's automatic validation formats its 400 is left out. The pipeline records only that the request was rejected before the service ran.
- **Client page side effects.** HTTP calls, toasts, navigation, loading flags and rendering are left out, as are the other client pages and service wrappers.
- **`SearchMenuDto`.** The class is declared in `MenuDto.cs` but no endpoint binds it: the search endpoint reads the name from the query string. It is not modelled.
- **Wiring.** Dependency injection, authentication, Swagger and CORS setup in `Program.cs` are left out.

=== FILE: auth_controller.dfy ===
/** `AuthController`: a login that accepts one fixed pair of credentials and
    asks the JWT service for a token, and an endpoint that reports whether a
    token validates. Each action turns any exception into the generic `500`. */
module AuthController {
  import opened Wrappers
  import opened Text
  import opened Exceptions
  import opened Responses
  import JwtService

  datatype LoginRequest = LoginRequest(username: string, password: string)
  datatype LoginResponse = LoginResponse(token: string, username: string, expiresIn: int)

  const AdminUsername: string := "admin"
  const AdminPassword: string := "admin123"
  const AdminUserId: string := "1"
  const AdminRole: string := "Admin"
  /** The lifetime the response announces, in seconds, whatever the settings say. */
  const AnnouncedExpiresIn: int := 3600

  const LoginSucceeded: string := "Login realizado com sucesso"
  const InvalidCredentials: string := "Usuário ou senha inválidos"
  const TokenValid: string := "Token válido"
  const TokenInvalid: string := "Token inválido"

  /** What the login asks the token service for. */
  datatype TokenRequest = TokenRequest(userId: string, username: string, roles: seq<string>)

  /** The credential rule: only `admin`/`admin123`, compared exactly. */
  predicate CredentialsAccepted(r: LoginRequest)
  {
    r.username == AdminUsername && r.password == AdminPassword
  }

  /** The token requested for an accepted login: user id "1", the request's
      username, role "Admin". */
  function TokenRequestFor(r: LoginRequest): (t: TokenRequest)
    requires CredentialsAccepted(r)
    ensures t.userId == AdminUserId && t.username == AdminUsername && t.roles == [AdminRole]
  {
    TokenRequest(AdminUserId, r.username, [AdminRole])
  }

  /** `Login`, given the token service as `issue`. Accepted credentials give
      `200` with the token, the echoed username and `ExpiresIn = 3600`, or
      `500` when issuing throws; any other credentials give `401` without
      asking for a token. */
  function Login(r: LoginRequest, issue: TokenRequest -> Result<string, Exception>): (a: ActionResult<LoginResponse>)
    ensures a.status == Status401Unauthorized <==> !CredentialsAccepted(r)
    ensures a.status == Status401Unauthorized ==> a.body == ErrorResponse(InvalidCredentials, None)
    ensures a.status == Status200OK <==> CredentialsAccepted(r) && issue(TokenRequestFor(r)).Success?
    ensures a.status == Status200OK ==>
      a.body == SuccessResponse(LoginResponse(issue(TokenRequestFor(r)).value, r.username, AnnouncedExpiresIn), Some(LoginSucceeded))
    ensures CredentialsAccepted(r) && issue(TokenRequestFor(r)).Failure? ==> a == InternalError()
  {
    if CredentialsAccepted(r) then
      match issue(TokenRequestFor(r))
      case Failure(_) => InternalError()
      case Success(token) =>
        Ok(SuccessResponse(LoginResponse(token, r.username, AnnouncedExpiresIn), Some(LoginSucceeded)))
    else
      ActionResult(Status401Unauthorized, ErrorResponse(InvalidCredentials, None), None)
  }

  /** Rejected credentials never reach the token service: the response is the
      same whatever the service would have done. */
  lemma RejectedLoginIssuesNoToken(r: LoginRequest, f: TokenRequest -> Result<string, Exception>, g: TokenRequest -> Result<string, Exception>)
    requires !CredentialsAccepted(r)
    ensures Login(r, f) == Login(r, g)
  {
  }

  /** The login wired to the JWT service model. */
  function LoginWith(svc: JwtService.Service, r: LoginRequest, jti: string, clocks: JwtService.TokenClocks,
                     write: JwtService.TokenDescriptor -> Option<string>): (a: ActionResult<LoginResponse>)
    requires JwtService.SettingsAcceptable(svc.settings)
    ensures a.status == Status200OK <==>
      CredentialsAccepted(r) && JwtService.GenerateToken(svc, Some(AdminUserId), Some(AdminUsername), Some([AdminRole]), jti, clocks, write).Success?
  {
    Login(r, (t: TokenRequest) =>
      match JwtService.GenerateToken(svc, Some(t.userId), Some(t.username), Some(t.roles), jti, clocks, write)
      case Failure(e) => Failure(e)
      case Success(issued) => Success(issued.text))
  }

  /** The announced `ExpiresIn` is the token's real lifetime exactly when the
      settings keep the default of 60 minutes (both clock reads agreeing). */
  lemma AnnouncedLifetimeMatchesSettings(svc: JwtService.Service, jti: string, clocks: JwtService.TokenClocks,
                                         write: JwtService.TokenDescriptor -> Option<string>)
    requires JwtService.SettingsAcceptable(svc.settings)
    requires clocks.expiryRead == clocks.notBeforeRead
    requires JwtService.GenerateToken(svc, Some(AdminUserId), Some(AdminUsername), Some([AdminRole]), jti, clocks, write).Success?
    ensures var d := JwtService.GenerateToken(svc, Some(AdminUserId), Some(AdminUsername), Some([AdminRole]), jti, clocks, write).value.descriptor;
      d.expires - d.notBefore == AnnouncedExpiresIn <==> svc.settings.expirationMinutes == JwtService.DefaultExpirationMinutes
  {
  }

  /** `ValidateToken`, given the service's outcome: `200` with whether a
      principal came back, or `500` for any exception. */
  function ValidateToken(o: Result<Option<seq<JwtService.Claim>>, Exception>): (a: ActionResult<bool>)
    ensures a.status == Status200OK <==> o.Success?
    ensures o.Success? ==> a.body.data == Some(o.value.Some?)
    ensures o.Success? ==> a.body.message == Some(if o.value.Some? then TokenValid else TokenInvalid)
    ensures o.Failure? ==> a == InternalError()
  {
    match o
    case Failure(_) => InternalError()
    case Success(principal) =>
      var isValid := principal.Some?;
      Ok(SuccessResponse(isValid, Some(if isValid then TokenValid else TokenInvalid)))
  }

  /** The endpoint wired to the JWT service model: a blank token is a `500`,
      not a `200` carrying false. */
  function ValidateTokenWith(token: Option<string>, v: JwtService.Verdict): (a: ActionResult<bool>)
    ensures a.status == Status500InternalServerError <==> IsNullOrWhiteSpace(token)
    ensures a.status == Status200OK <==> !IsNullOrWhiteSpace(token)
    ensures a.status == Status200OK ==>
      var valid := v.Validated? && (v.algorithm.None? || EqualsIgnoreCase(v.algorithm.value, JwtService.HmacSha256));
      && a.body.data == Some(valid)
      && a.body.message == Some(if valid then TokenValid else TokenInvalid)
    ensures IsNullOrWhiteSpace(token) ==> a == InternalError()
  {
    ValidateToken(JwtService.ValidateToken(token, v))
  }
}

=== FILE: cadastro_menu.dfy ===
/** The form logic of the client's create/edit page (`CadastroMenu`): the
    checks made before submitting, the request body built on submit, and the
    change handler that clears a field's error. Rendering, toasts, navigation
    and the HTTP calls are not part of the model. Strings follow JavaScript:
    `trim` removes the ECMAScript whitespace set and `parseInt` reads the
    longest numeric prefix. */
module CadastroMenu {
  import opened Wrappers
  import opened Text
  import Dtos

  /** The form's state: every input holds a string. */
  datatype FormData = FormData(nome: string, ordem: string, icone: string, descricao: string, status: string)

  datatype FormField = NomeField | OrdemField | IconeField | DescricaoField | StatusField

  /** `Record<string, string>` of messages by field. */
  type Errors = map<FormField, string>

  const NomeRequiredMessage: string := "O nome do menu é obrigatório"
  const OrdemInvalidMessage: string := "A ordem deve ser um número maior que zero"
  const IconeRequiredMessage: string := "O ícone do menu é obrigatório"

  /** The initial state of the form. */
  const InitialForm: FormData := FormData("", "", "", "", Dtos.StatusAtivo)

  /** `!value.trim()`: the string is empty once JavaScript whitespace is removed. */
  predicate TrimsToEmpty(s: string)
  {
    JsTrim(s) == ""
  }

  /** `!formData.ordem || isNaN(ordem) || ordem <= 0`. */
  predicate OrdemRejected(ordem: string)
  {
    ordem == "" || JsParseInt(ordem).None? || JsParseInt(ordem).value <= 0
  }

  /** The messages for the fields found failing, one per field. */
  function ErrorsOf(nomeBlank: bool, ordemBad: bool, iconeBlank: bool): (e: Errors)
    ensures NomeField in e <==> nomeBlank
    ensures OrdemField in e <==> ordemBad
    ensures IconeField in e <==> iconeBlank
    ensures DescricaoField !in e && StatusField !in e
    ensures NomeField in e ==> e[NomeField] == NomeRequiredMessage
    ensures OrdemField in e ==> e[OrdemField] == OrdemInvalidMessage
    ensures IconeField in e ==> e[IconeField] == IconeRequiredMessage
    ensures e == map[] <==> !nomeBlank && !ordemBad && !iconeBlank
  {
    var e1: Errors := if nomeBlank then map[NomeField := NomeRequiredMessage] else map[];
    var e2 := if ordemBad then e1[OrdemField := OrdemInvalidMessage] else e1;
    var e3 := if iconeBlank then e2[IconeField := IconeRequiredMessage] else e2;
    assert nomeBlank ==> NomeField in e3;
    assert ordemBad ==> OrdemField in e3;
    e3
  }

  /** `validate`: one message per failing field, and true exactly when there
      is none. */
  function Validate(f: FormData): (r: (Errors, bool))
    ensures NomeField in r.0 <==> TrimsToEmpty(f.nome)
    ensures OrdemField in r.0 <==> OrdemRejected(f.ordem)
    ensures IconeField in r.0 <==> TrimsToEmpty(f.icone)
    ensures DescricaoField !in r.0 && StatusField !in r.0
    ensures NomeField in r.0 ==> r.0[NomeField] == NomeRequiredMessage
    ensures OrdemField in r.0 ==> r.0[OrdemField] == OrdemInvalidMessage
    ensures IconeField in r.0 ==> r.0[IconeField] == IconeRequiredMessage
    ensures r.1 <==> r.0 == map[]
  {
    var e := ErrorsOf(TrimsToEmpty(f.nome), OrdemRejected(f.ordem), TrimsToEmpty(f.icone));
    (e, e == map[])
  }

  /** The body sent to the server. `descricao` is `None` for `undefined`. */
  datatype MenuData = MenuData(nome: string, ordem: int, icone: string, descricao: Option<string>, status: string)

  /** The body built in `handleSubmit` once `validate` has passed: trimmed
      name, icon and description (an empty description is left out), the
      parsed order, and the status as selected. */
  function Payload(f: FormData): (d: MenuData)
    requires Validate(f).1
    ensures d.nome == JsTrim(f.nome) && d.nome != ""
    ensures d.icone == JsTrim(f.icone) && d.icone != ""
    ensures d.descricao.None? <==> TrimsToEmpty(f.descricao)
    ensures d.descricao.Some? ==> d.descricao.value == JsTrim(f.descricao)
    ensures Some(d.ordem) == JsParseInt(f.ordem) && d.ordem > 0
    ensures d.status == f.status
  {
    var descricao := JsTrim(f.descricao);
    MenuData(
      JsTrim(f.nome),
      JsParseInt(f.ordem).value,
      JsTrim(f.icone),
      if descricao == "" then None else Some(descricao),
      f.status)
  }

  /** The request the page sends. */
  datatype Submission = CreateMenu(data: MenuData) | UpdateMenu(id: int, data: MenuData)

  /** The page's `menuId`: `parseInt` of the `id` query parameter when it is
      present and non-empty; `None` stands for `null` and for `NaN`. */
  function MenuIdOf(idParam: Option<string>): (r: Option<int>)
    ensures idParam.None? || idParam.value == "" ==> r.None?
    ensures idParam.Some? && idParam.value != "" ==> r == JsParseInt(idParam.value)
  {
    if idParam.None? || idParam.value == "" then None else JsParseInt(idParam.value)
  }

  /** JavaScript truthiness of a `number | null`: neither null, NaN nor 0. */
  predicate Truthy(id: Option<int>)
  {
    id.Some? && id.value != 0
  }

  /** `handleSubmit`: nothing is sent unless `validate` passes; then an update
      when `menuId` is truthy, a create otherwise. */
  function Submit(f: FormData, menuId: Option<int>): (r: Option<Submission>)
    ensures r.Some? <==> Validate(f).1
    ensures r.Some? ==> r.value.data == Payload(f)
    ensures r.Some? ==> (r.value.UpdateMenu? <==> Truthy(menuId))
    ensures r.Some? && r.value.UpdateMenu? ==> r.value.id == menuId.value
  {
    if !Validate(f).1 then None
    else if Truthy(menuId) then Some(UpdateMenu(menuId.value, Payload(f)))
    else Some(CreateMenu(Payload(f)))
  }

  /** The form with one field replaced. */
  function WithField(f: FormData, field: FormField, value: string): (g: FormData)
    ensures FieldValue(g, field) == value
    ensures forall other | other != field :: FieldValue(g, other) == FieldValue(f, other)
  {
    match field
    case NomeField => f.(nome := value)
    case OrdemField => f.(ordem := value)
    case IconeField => f.(icone := value)
    case DescricaoField => f.(descricao := value)
    case StatusField => f.(status := value)
  }

  /** The value a field holds. */
  function FieldValue(f: FormData, field: FormField): string
  {
    match field
    case NomeField => f.nome
    case OrdemField => f.ordem
    case IconeField => f.icone
    case DescricaoField => f.descricao
    case StatusField => f.status
  }

  /** A form is determined by the values of its five fields, so the frame
      `WithField` keeps pins its result down completely. */
  lemma FieldValuesDetermineForm(f: FormData, g: FormData)
    ensures (forall field :: FieldValue(f, field) == FieldValue(g, field)) <==> f == g
  {
    if forall field :: FieldValue(f, field) == FieldValue(g, field) {
      assert FieldValue(f, NomeField) == FieldValue(g, NomeField);
      assert FieldValue(f, OrdemField) == FieldValue(g, OrdemField);
      assert FieldValue(f, IconeField) == FieldValue(g, IconeField);
      assert FieldValue(f, DescricaoField) == FieldValue(g, DescricaoField);
      assert FieldValue(f, StatusField) == FieldValue(g, StatusField);
    }
  }

  /** JavaScript truthiness of `errors[field]`: present and not the empty string. */
  predicate HasError(errors: Errors, field: FormField)
  {
    field in errors && errors[field] != ""
  }

  /** `handleChange`: the named field takes the value; that field's error is
      deleted when it is set, and every other error is kept. */
  function HandleChange(f: FormData, errors: Errors, field: FormField, value: string): (r: (FormData, Errors))
    ensures FieldValue(r.0, field) == value
    ensures forall other | other != field :: FieldValue(r.0, other) == FieldValue(f, other)
    ensures !HasError(r.1, field)
    ensures field in r.1 ==> field in errors && r.1[field] == errors[field]
    ensures forall other | other != field :: (other in r.1 <==> other in errors)
    ensures forall other | other in r.1 :: r.1[other] == errors[other]
  {
    (WithField(f, field, value), if HasError(errors, field) then errors - {field} else errors)
  }

  /** After `validate`, every recorded message is non-empty, so a change to a
      field clears its error outright. */
  lemma ChangeClearsValidationError(f: FormData, g: FormData, field: FormField, value: string)
    ensures field !in HandleChange(g, Validate(f).0, field, value).1
  {
  }

  // ---------------------------------------------------------------------------
  // How the form relates to the server

  /** `loadMenu`: the form filled from a menu fetched for editing. */
  function FormOf(m: Dtos.MenuDto): (f: FormData)
    ensures f.nome == m.nome && f.icone == m.icone && f.status == m.status
    ensures f.ordem != "" && JsParseInt(f.ordem) == Some(m.ordem)
    ensures f.descricao == (if m.descricao.Some? then m.descricao.value else "")
  {
    ParseIntOfIntToString(m.ordem);
    FormData(m.nome, IntToString(m.ordem), m.icone, m.descricao.GetOr(""), m.status)
  }

  /** A string with no JavaScript whitespace at either end is its own trim. */
  lemma TrimmedIsFixed(s: string)
    requires s == "" || (!IsJsWhiteSpace(s[0]) && !IsJsWhiteSpace(s[|s| - 1]))
    ensures JsTrim(s) == s
  {
    if s != "" {
      assert LeadingJsWhiteSpace(s) == 0;
      assert s[0..] == s;
      assert TrailingJsWhiteSpace(s) == 0;
    }
  }

  /** The order a stored menu shows in the form is read back as itself. */
  lemma OrdemOfFormReadsBack(m: Dtos.MenuDto)
    requires m.ordem > 0
    ensures FormOf(m).ordem != "" && JsParseInt(FormOf(m).ordem) == Some(m.ordem)
    ensures !OrdemRejected(FormOf(m).ordem)
  {
    ParseIntOfIntToString(m.ordem);
    assert |NatToDecimal(m.ordem)| >= 1;
  }

  /** Opening a stored menu for editing and saving it unchanged sends back its
      own order and status, and its name and icon when they carry no
      surrounding whitespace. */
  lemma {:induction false} EditWithoutChangesRoundTrip(m: Dtos.MenuDto)
    requires m.ordem > 0
    requires m.nome != "" && !IsJsWhiteSpace(m.nome[0]) && !IsJsWhiteSpace(m.nome[|m.nome| - 1])
    requires m.icone != "" && !IsJsWhiteSpace(m.icone[0]) && !IsJsWhiteSpace(m.icone[|m.icone| - 1])
    ensures Validate(FormOf(m)).1
    ensures var d := Payload(FormOf(m));
      d.nome == m.nome && d.icone == m.icone && d.ordem == m.ordem && d.status == m.status
  {
    var f := FormOf(m);
    FormOfValid(m);
    var d := Payload(f);
    assert d.nome == JsTrim(m.nome) == m.nome;
    assert d.icone == JsTrim(m.icone) == m.icone;
    assert Some(d.ordem) == JsParseInt(f.ordem) == Some(m.ordem);
    assert d.status == m.status;
  }

  /** The form of such a stored menu passes the page's validation, with its
      name and icon as their own trims. */
  lemma FormOfValid(m: Dtos.MenuDto)
    requires m.ordem > 0
    requires m.nome != "" && !IsJsWhiteSpace(m.nome[0]) && !IsJsWhiteSpace(m.nome[|m.nome| - 1])
    requires m.icone != "" && !IsJsWhiteSpace(m.icone[0]) && !IsJsWhiteSpace(m.icone[|m.icone| - 1])
    ensures Validate(FormOf(m)).1
    ensures JsTrim(m.nome) == m.nome && JsTrim(m.icone) == m.icone
  {
    var f := FormOf(m);
    OrdemOfFormReadsBack(m);
    TrimmedIsFixed(m.nome);
    TrimmedIsFixed(m.icone);
    assert !TrimsToEmpty(f.nome) && !TrimsToEmpty(f.icone);
    PassingFieldsValidate(f);
  }

  /** A form whose name, order and icon all pass has no errors. */
  lemma PassingFieldsValidate(f: FormData)
    requires !TrimsToEmpty(f.nome) && !OrdemRejected(f.ordem) && !TrimsToEmpty(f.icone)
    ensures Validate(f).1
  {
    assert ErrorsOf(false, false, false) == map[];
  }

  /** The client's and the server's notions of "blank" differ: a name made of
      U+0085 (NEXT LINE) passes the page's check, since `trim` keeps it, but
      the server's `NotEmpty` rule counts it as whitespace and rejects it. */
  lemma NextLineNameIsBlankOnlyOnServer()
    ensures !TrimsToEmpty("\U{0085}")
    ensures IsBlank("\U{0085}")
  {
    assert LeadingJsWhiteSpace("\U{0085}") == 0;
    assert TrailingJsWhiteSpace("\U{0085}") == 0;
  }

  /** The digit run of "12abc" is "12". */
  lemma DigitsOfTwelveAbc()
    ensures DigitPrefixLength("12abc", 10) == 2
  {
    assert "12abc"[1..] == "2abc";
    assert "2abc"[1..] == "abc";
    assert DigitPrefixLength("abc", 10) == 0;
  }

  /** `parseInt` ignores what follows the digits, so `validate` accepts the
      string "12abc" and the payload would carry 12. (The order input is
      `type="number"`, which hands text like this over as "".) */
  lemma ParseIntIgnoresSuffix()
    ensures JsParseInt("12abc") == Some(12)
  {
    DecimalValueOfTwelveAbc();
    assert "12abc"[0] == '1' && !IsJsWhiteSpace('1');
  }

  /** The digits "12abc" starts with are read as 12. */
  lemma DecimalValueOfTwelveAbc()
    ensures ParseUnsigned("12abc") == Some(12)
  {
    DigitsOfTwelveAbc();
    assert "12abc"[..2] == "12";
    assert "12"[..1] == "1";
    assert DigitsValue("12", 10) == 12;
  }

  lemma SuffixedOrdemAccepted()
    ensures !OrdemRejected("12abc")
  {
    ParseIntIgnoresSuffix();
  }

  /** A digit followed by a character that is no decimal digit and no `x` is
      read as that digit alone. */
  lemma LeadingDigitOnly(s: string)
    requires |s| >= 2 && IsDecimalDigit(s[0]) && DigitValue(s[1]) >= 10 && s[1] != 'x' && s[1] != 'X'
    ensures ParseUnsigned(s) == Some(DigitValue(s[0]))
    ensures JsParseInt(s) == Some(DigitValue(s[0]))
  {
    assert !IsJsWhiteSpace(s[0]) && s[0] != '-' && s[0] != '+';
    assert s[1..][0] == s[1];
    assert DigitPrefixLength(s, 10) == 1;
    assert s[..1][..0] == [];
    assert DigitsValue(s[..1], 10) == DigitValue(s[0]);
  }

  /** Values a number input does hold are truncated: "1.5" and "1e3" both
      pass the order check and are sent as 1. */
  lemma NumberInputValuesTruncated()
    ensures JsParseInt("1.5") == Some(1) && !OrdemRejected("1.5")
    ensures JsParseInt("1e3") == Some(1) && !OrdemRejected("1e3")
  {
    assert JsParseInt("1.5") == Some(1) by {
      var half := "1.5";
      assert half[0] == '1' && half[1] == '.' && |half| == 3;
      LeadingDigitOnly(half);
    }
    assert JsParseInt("1e3") == Some(1) by {
      var thousand := "1e3";
      assert thousand[0] == '1' && thousand[1] == 'e' && |thousand| == 3;
      LeadingDigitOnly(thousand);
    }
  }

  /** The digit run of "1A" in radix 16 is the whole string. */
  lemma HexDigitsOfOneA()
    ensures DigitPrefixLength("1A", 16) == 2
  {
    assert "1A"[1..] == "A";
    assert "A"[1..] == "";
  }

  /** The digits "0x1A" are read in radix 16. */
  lemma HexValueOfOneA()
    ensures ParseUnsigned("0x1A") == Some(26)
  {
    assert "0x1A"[2..] == "1A";
    HexDigitsOfOneA();
    assert "1A"[..2] == "1A";
    assert "1A"[..1] == "1";
    assert DigitsValue("1A", 16) == 26;
  }

  /** Without a radix, `parseInt` reads a `0x` prefix as hexadecimal. */
  lemma ParseIntReadsHex()
    ensures JsParseInt("0x1A") == Some(26)
  {
    HexValueOfOneA();
  }

  lemma ZeroParses()
    ensures JsParseInt("0") == Some(0)
  {
    DigitsOfSingle("0");
  }

  /** A single decimal digit is read as its value. */
  lemma DigitsOfSingle(d: string)
    requires |d| == 1 && IsDecimalDigit(d[0])
    ensures ParseUnsigned(d) == Some(DigitValue(d[0]))
  {
    assert d[1..] == "";
    assert DigitPrefixLength(d, 10) == 1;
    assert d[..1] == d;
    assert DigitsValue(d[..0], 10) == 0;
    assert DigitsValue(d, 10) == DigitValue(d[0]);
  }

  lemma MinusThreeParses()
    ensures JsParseInt("-3") == Some(-3)
  {
    assert "-3"[1..] == "3";
    DigitsOfSingle("3");
  }

  lemma AbcIsNaN()
    ensures JsParseInt("abc").None?
  {
    NoDigitsInAbc();
    assert "abc"[0] == 'a' && !IsJsWhiteSpace('a');
  }

  lemma NoDigitsInAbc()
    ensures ParseUnsigned("abc").None?
  {
    assert DigitPrefixLength("abc", 10) == 0;
  }

  /** Zero and negative orders are refused by the page, and so is text. */
  lemma NonPositiveOrdemRejected()
    ensures OrdemRejected("0") && OrdemRejected("-3") && OrdemRejected("abc")
  {
    ZeroParses();
    MinusThreeParses();
    AbcIsNaN();
  }
}

=== FILE: dtos.dfy ===
/** Transfer shapes of the Menu endpoints. */
module Dtos {
  import opened Wrappers
  import opened Entities

  /** What every read returns: the entity with `status` rendered as a string. */
  datatype MenuDto = MenuDto(
    id: int,
    nome: string,
    ordem: int,
    icone: string,
    descricao: Option<string>,
    status: string,
    criadoEm: Instant,
    atualizadoEm: Instant)

  /** Body of a create request. */
  datatype CreateMenuDto = CreateMenuDto(
    nome: string,
    ordem: int,
    icone: string,
    descricao: Option<string>,
    status: string)

  /** Body of an update request: the same five fields as a create request. */
  datatype UpdateMenuDto = UpdateMenuDto(
    nome: string,
    ordem: int,
    icone: string,
    descricao: Option<string>,
    status: string)

  const StatusAtivo: string := "Ativo"
  const StatusInativo: string := "Inativo"

  /** A create body in which every field was omitted: the property initialisers. */
  function DefaultCreateMenuDto(): (d: CreateMenuDto)
    ensures d.status == StatusAtivo
    ensures d.nome == "" && d.icone == "" && d.ordem == 0 && d.descricao.None?
  {
    CreateMenuDto("", 0, "", None, StatusAtivo)
  }

  /** An update body in which every field was omitted. */
  function DefaultUpdateMenuDto(): (d: UpdateMenuDto)
    ensures d.status == StatusAtivo
    ensures d.nome == "" && d.icone == "" && d.ordem == 0 && d.descricao.None?
  {
    UpdateMenuDto("", 0, "", None, StatusAtivo)
  }

  /** Reads an update body as a create body, field by field. */
  function UpdateAsCreate(u: UpdateMenuDto): CreateMenuDto
  {
    CreateMenuDto(u.nome, u.ordem, u.icone, u.descricao, u.status)
  }

  /** Reads a create body as an update body, field by field. */
  function CreateAsUpdate(c: CreateMenuDto): UpdateMenuDto
  {
    UpdateMenuDto(c.nome, c.ordem, c.icone, c.descricao, c.status)
  }

  /** The two request shapes carry the same information: converting either way
      and back loses nothing, and the defaults correspond. */
  lemma RequestShapesCorrespond(c: CreateMenuDto, u: UpdateMenuDto)
    ensures UpdateAsCreate(CreateAsUpdate(c)) == c
    ensures CreateAsUpdate(UpdateAsCreate(u)) == u
    ensures UpdateAsCreate(DefaultUpdateMenuDto()) == DefaultCreateMenuDto()
  {
  }
}

=== FILE: entities.dfy ===
/** The `Menu` entity and its status enumeration. */
module Entities {
  import opened Wrappers

  /** A point in time (`DateTime`), read from the clock by the caller. */
  type Instant = int

  /** `MenuStatus`: exactly two members. */
  datatype MenuStatus = Ativo | Inativo

  /** The numeric value of each member, as stored in the database column. */
  function StatusValue(s: MenuStatus): (v: int)
    ensures v == 1 <==> s == Ativo
    ensures v == 2 <==> s == Inativo
  {
    match s
    case Ativo => 1
    case Inativo => 2
  }

  /** Casting a stored integer back to the enumeration; other values are not members. */
  function StatusOfValue(v: int): (r: Option<MenuStatus>)
    ensures r.Some? <==> v == 1 || v == 2
    ensures r.Some? ==> StatusValue(r.value) == v
  {
    if v == 1 then Some(Ativo) else if v == 2 then Some(Inativo) else None
  }

  /** A stored menu. `descricao` is the only nullable field. */
  datatype Menu = Menu(
    id: int,
    nome: string,
    ordem: int,
    icone: string,
    descricao: Option<string>,
    status: MenuStatus,
    criadoEm: Instant,
    atualizadoEm: Instant)

  /** `new Menu()`: every property at its initialiser. The two timestamp
      initialisers read the clock separately, so they are two parameters. */
  function NewMenu(clock1: Instant, clock2: Instant): (m: Menu)
    ensures m.id == 0 && m.ordem == 0
    ensures m.nome == "" && m.icone == "" && m.descricao.None?
    ensures m.status == Ativo
    ensures m.criadoEm == clock1 && m.atualizadoEm == clock2
  {
    Menu(0, "", 0, "", None, Ativo, clock1, clock2)
  }

  lemma StatusValueRoundTrip(s: MenuStatus)
    ensures StatusOfValue(StatusValue(s)) == Some(s)
  {
  }
}

=== FILE: exceptions.dfy ===
/** The exceptions the server raises, as one tagged datatype. `NotFound`,
    `BusinessValidation` and `Domain` (a `DomainException` raised directly) are
    the domain hierarchy; the others come from libraries or the framework. */
module Exceptions {
  import opened Wrappers
  import opened Text
  import opened Validators

  datatype Exception =
    | NotFound(entityName: string, key: int)
    | BusinessValidation(reason: string)
    | Domain(domainMessage: string)
    /** FluentValidation's `ValidationException`, carrying its failures. */
    | Validation(failures: seq<ValidationFailure>)
    /** `ArgumentNullException` from an argument guard. */
    | ArgumentNull(paramName: string)
    /** `ArgumentException` from an argument guard. */
    | Argument(paramName: string)
    | InvalidOperation(operationMessage: string)
    /** Anything else: a database failure, a cancellation, a library fault. */
    | Unexpected(detail: string)

  /** `NotFoundException` and `BusinessValidationException` both derive from `DomainException`. */
  predicate IsDomainException(e: Exception)
  {
    e.NotFound? || e.BusinessValidation? || e.Domain?
  }

  /** The entity name the service reports in `NotFound` (`nameof(Menu)`). */
  const MenuEntity: string := "Menu"

  const NotFoundInfix: string := " com ID '"
  const NotFoundSuffix: string := "' não foi encontrado."

  /** `Exception.Message` of a domain exception: a `NotFoundException` formats
      entity and key; the other two carry their message verbatim. */
  function Message(e: Exception): (r: string)
    requires IsDomainException(e)
    ensures e.BusinessValidation? ==> r == e.reason
    ensures e.Domain? ==> r == e.domainMessage
    ensures e.NotFound? ==>
      var p := e.entityName + NotFoundInfix;
      && |r| >= |p| + |NotFoundSuffix|
      && r[..|p|] == p
      && r[|r| - |NotFoundSuffix|..] == NotFoundSuffix
      && r[|p|..|r| - |NotFoundSuffix|] == IntToString(e.key)
      && JsParseInt(r[|p|..|r| - |NotFoundSuffix|]) == Some(e.key)
  {
    match e
    case NotFound(entity, key) =>
      var p, d := entity + NotFoundInfix, IntToString(key);
      ThreePartSlices(p, d, NotFoundSuffix);
      ParseIntOfIntToString(key);
      p + d + NotFoundSuffix
    case BusinessValidation(reason) => reason
    case Domain(m) => m
  }

  /** The three parts of `a + b + c` are read back by slicing. */
  lemma ThreePartSlices(a: string, b: string, c: string)
    ensures var r := a + b + c;
      && r[..|a|] == a
      && r[|a|..|r| - |c|] == b
      && r[|r| - |c|..] == c
  {
    var r := a + b + c;
    assert r[..|a|] == a;
    assert r[|a|..|r| - |c|] == b;
  }

  /** A `NotFound` message names its entity and key and nothing else: for one
      entity, the message determines the key, and the key parses back from it. */
  lemma {:induction false} NotFoundMessageDeterminesKey(entity: string, k1: int, k2: int)
    requires Message(NotFound(entity, k1)) == Message(NotFound(entity, k2))
    ensures k1 == k2
  {
    var r := Message(NotFound(entity, k1));
    var p := entity + NotFoundInfix;
    assert JsParseInt(r[|p|..|r| - |NotFoundSuffix|]) == Some(k1);
    assert JsParseInt(r[|p|..|r| - |NotFoundSuffix|]) == Some(k2);
  }
}

=== FILE: jwt_service.dfy ===
/** `JwtService`: the decisions around token issue and validation. Signing,
    serialising, parsing and checking signatures belong to the
    `System.IdentityModel` library and appear as oracles: `write` stands for
    `WriteToken` (`None` when it throws) and a `Verdict` for what
    `CanReadToken`/`ValidateToken` report. Clock reads, the random `jti` and
    the Unix `iat` are parameters; times are in seconds. */
module JwtService {
  import opened Wrappers
  import opened Text
  import opened Exceptions

  /** `JwtSettings` as bound from configuration; a missing value is `None`. */
  datatype JwtSettings = JwtSettings(
    secretKey: Option<string>,
    issuer: Option<string>,
    audience: Option<string>,
    expirationMinutes: int)

  const DefaultExpirationMinutes: int := 60
  const MinSecretKeyLength: nat := 32

  const SecretKeyEmpty: string := "JWT SecretKey não pode ser vazio"
  const SecretKeyTooShort: string := "JWT SecretKey deve ter no mínimo 32 caracteres"
  const IssuerEmpty: string := "JWT Issuer não pode ser vazio"
  const AudienceEmpty: string := "JWT Audience não pode ser vazio"
  const ExpirationNotPositive: string := "JWT ExpirationMinutes deve ser maior que zero"
  const TokenGenerationFailed: string := "Falha ao gerar token JWT"

  /** Settings the service accepts, stated as one conjunction; the secret's
      length is counted in UTF-16 characters, not bytes. */
  predicate SettingsAcceptable(s: JwtSettings)
  {
    && !IsNullOrWhiteSpace(s.secretKey)
    && Utf16Length(s.secretKey.value) >= MinSecretKeyLength
    && !IsNullOrWhiteSpace(s.issuer)
    && !IsNullOrWhiteSpace(s.audience)
    && s.expirationMinutes > 0
  }

  /** `ValidateSettings`: the checks run in order and the first that fails
      throws `InvalidOperationException` with its message. */
  function ValidateSettings(s: JwtSettings): (r: Option<Exception>)
    ensures r.None? <==> SettingsAcceptable(s)
    ensures r == Some(InvalidOperation(SecretKeyEmpty)) <==> IsNullOrWhiteSpace(s.secretKey)
    ensures r == Some(InvalidOperation(SecretKeyTooShort)) <==>
      !IsNullOrWhiteSpace(s.secretKey) && Utf16Length(s.secretKey.value) < MinSecretKeyLength
    ensures r == Some(InvalidOperation(IssuerEmpty)) <==>
      !IsNullOrWhiteSpace(s.secretKey) && Utf16Length(s.secretKey.value) >= MinSecretKeyLength
      && IsNullOrWhiteSpace(s.issuer)
    ensures r == Some(InvalidOperation(AudienceEmpty)) <==>
      !IsNullOrWhiteSpace(s.secretKey) && Utf16Length(s.secretKey.value) >= MinSecretKeyLength
      && !IsNullOrWhiteSpace(s.issuer) && IsNullOrWhiteSpace(s.audience)
    ensures r == Some(InvalidOperation(ExpirationNotPositive)) <==>
      !IsNullOrWhiteSpace(s.secretKey) && Utf16Length(s.secretKey.value) >= MinSecretKeyLength
      && !IsNullOrWhiteSpace(s.issuer) && !IsNullOrWhiteSpace(s.audience) && s.expirationMinutes <= 0
  {
    if IsNullOrWhiteSpace(s.secretKey) then Some(InvalidOperation(SecretKeyEmpty))
    else if Utf16Length(s.secretKey.value) < MinSecretKeyLength then Some(InvalidOperation(SecretKeyTooShort))
    else if IsNullOrWhiteSpace(s.issuer) then Some(InvalidOperation(IssuerEmpty))
    else if IsNullOrWhiteSpace(s.audience) then Some(InvalidOperation(AudienceEmpty))
    else if s.expirationMinutes <= 0 then Some(InvalidOperation(ExpirationNotPositive))
    else None
  }

  /** A constructed service: its settings passed validation. */
  datatype Service = Service(settings: JwtSettings)

  /** The constructor: a null options object is an `ArgumentNullException`;
      otherwise the service exists exactly when the settings validate. */
  function Construct(options: Option<JwtSettings>): (r: Result<Service, Exception>)
    ensures options.None? ==> r == Failure(ArgumentNull("jwtSettings"))
    ensures r.Success? <==> options.Some? && SettingsAcceptable(options.value)
    ensures r.Success? ==> r.value.settings == options.value
    ensures options.Some? && r.Failure? ==> Some(r.error) == ValidateSettings(options.value)
  {
    match options
    case None => Failure(ArgumentNull("jwtSettings"))
    case Some(s) =>
      match ValidateSettings(s)
      case Some(e) => Failure(e)
      case None => Success(Service(s))
  }

  // ---------------------------------------------------------------------------
  // Claims

  const NameIdentifierType: string := "http://schemas.xmlsoap.org/ws/2005/05/identity/claims/nameidentifier"
  const NameType: string := "http://schemas.xmlsoap.org/ws/2005/05/identity/claims/name"
  const RoleType: string := "http://schemas.microsoft.com/ws/2008/06/identity/claims/role"
  const SubType: string := "sub"
  const JtiType: string := "jti"
  const IatType: string := "iat"

  const StringValueType: string := "http://www.w3.org/2001/XMLSchema#string"
  const Integer64ValueType: string := "http://www.w3.org/2001/XMLSchema#integer64"

  datatype Claim = Claim(claimType: string, value: string, valueType: string)

  function RoleClaims(roles: seq<string>): (cs: seq<Claim>)
    ensures |cs| == |roles|
    ensures forall i | 0 <= i < |cs| :: cs[i] == Claim(RoleType, roles[i], StringValueType)
  {
    seq(|roles|, i requires 0 <= i < |roles| => Claim(RoleType, roles[i], StringValueType))
  }

  /** `BuildClaims`: five fixed claims, then one role claim per role in order. */
  function BuildClaims(userId: string, username: string, roles: Option<seq<string>>, jti: string, iatSeconds: int): (cs: seq<Claim>)
    ensures |cs| == 5 + (if roles.Some? then |roles.value| else 0)
    ensures cs[0] == Claim(NameIdentifierType, userId, StringValueType)
    ensures cs[1] == Claim(NameType, username, StringValueType)
    ensures cs[2] == Claim(SubType, userId, StringValueType)
    ensures cs[3] == Claim(JtiType, jti, StringValueType)
    ensures cs[4] == Claim(IatType, IntToString(iatSeconds), Integer64ValueType)
    ensures roles.Some? ==> forall i | 0 <= i < |roles.value| :: cs[5 + i] == Claim(RoleType, roles.value[i], StringValueType)
  {
    [ Claim(NameIdentifierType, userId, StringValueType),
      Claim(NameType, username, StringValueType),
      Claim(SubType, userId, StringValueType),
      Claim(JtiType, jti, StringValueType),
      Claim(IatType, IntToString(iatSeconds), Integer64ValueType) ]
    + (if roles.Some? then RoleClaims(roles.value) else [])
  }

  /** Position `i` holds the first claim of type `claimType`. */
  predicate FirstOfType(cs: seq<Claim>, claimType: string, i: int)
  {
    && 0 <= i < |cs|
    && cs[i].claimType == claimType
    && forall j | 0 <= j < i :: cs[j].claimType != claimType
  }

  /** `ClaimsPrincipal.FindFirst(type)?.Value`: the value of the first claim
      of that type. */
  function FindFirst(cs: seq<Claim>, claimType: string): (r: Option<string>)
    ensures r.None? <==> forall i | 0 <= i < |cs| :: cs[i].claimType != claimType
    ensures r.Some? ==> exists i :: FirstOfType(cs, claimType, i) && cs[i].value == r.value
  {
    if cs == [] then None
    else if cs[0].claimType == claimType then
      assert FirstOfType(cs, claimType, 0);
      Some(cs[0].value)
    else
      var r := FindFirst(cs[1..], claimType);
      FindFirstStep(cs, claimType, r);
      r
  }

  lemma FindFirstStep(cs: seq<Claim>, claimType: string, r: Option<string>)
    requires cs != [] && cs[0].claimType != claimType
    requires r.None? <==> forall i | 0 <= i < |cs[1..]| :: cs[1..][i].claimType != claimType
    requires r.Some? ==> exists i :: FirstOfType(cs[1..], claimType, i) && cs[1..][i].value == r.value
    ensures r.None? <==> forall i | 0 <= i < |cs| :: cs[i].claimType != claimType
    ensures r.Some? ==> exists i :: FirstOfType(cs, claimType, i) && cs[i].value == r.value
  {
    assert forall i | 1 <= i < |cs| :: cs[i] == cs[1..][i - 1];
    if r.Some? {
      var i :| FirstOfType(cs[1..], claimType, i) && cs[1..][i].value == r.value;
      assert FirstOfType(cs, claimType, i + 1);
    }
  }

  /** The values of the role claims, in order. */
  function RolesOf(cs: seq<Claim>): (rs: seq<string>)
    ensures |rs| <= |cs|
  {
    if cs == [] then []
    else (if cs[0].claimType == RoleType then [cs[0].value] else []) + RolesOf(cs[1..])
  }

  lemma {:induction false} RolesOfRoleClaims(roles: seq<string>)
    ensures RolesOf(RoleClaims(roles)) == roles
  {
    if roles != [] {
      var cs := RoleClaims(roles);
      assert cs[1..] == RoleClaims(roles[1..]);
      RolesOfRoleClaims(roles[1..]);
    }
  }

  lemma {:induction false} RolesOfAppend(a: seq<Claim>, b: seq<Claim>)
    ensures RolesOf(a + b) == RolesOf(a) + RolesOf(b)
  {
    if a != [] {
      assert (a + b)[0] == a[0];
      assert (a + b)[1..] == a[1..] + b;
      RolesOfAppend(a[1..], b);
    } else {
      assert a + b == b;
    }
  }

  lemma {:induction false} NoRoles(cs: seq<Claim>)
    requires forall i | 0 <= i < |cs| :: cs[i].claimType != RoleType
    ensures RolesOf(cs) == []
  {
    if cs != [] {
      assert forall i | 0 <= i < |cs[1..]| :: cs[1..][i] == cs[i + 1];
      NoRoles(cs[1..]);
    }
  }

  /** The claim list gives back what it was built from: the user id as the
      first `NameIdentifier`, and exactly the roles, in order. */
  lemma ClaimsRoundTrip(userId: string, username: string, roles: Option<seq<string>>, jti: string, iatSeconds: int)
    ensures var cs := BuildClaims(userId, username, roles, jti, iatSeconds);
      && FindFirst(cs, NameIdentifierType) == Some(userId)
      && FindFirst(cs, NameType) == Some(username)
      && RolesOf(cs) == roles.GetOr([])
  {
    var cs := BuildClaims(userId, username, roles, jti, iatSeconds);
    var fixed := cs[..5];
    var tail := if roles.Some? then RoleClaims(roles.value) else [];
    assert cs == fixed + tail;
    RolesOfAppend(fixed, tail);
    assert forall i | 0 <= i < 5 :: fixed[i].claimType != RoleType;
    NoRoles(fixed);
    RolesOfRoleClaims(roles.GetOr([]));
  }

  // ---------------------------------------------------------------------------
  // Issuing a token

  /** The three clock reads token issue makes: `iat` in Unix seconds, the read
      the expiry is computed from, and the read used as `notBefore`. */
  datatype TokenClocks = TokenClocks(iatSeconds: int, expiryRead: int, notBeforeRead: int)

  /** What is handed to the library to sign. */
  datatype TokenDescriptor = TokenDescriptor(
    issuer: string,
    audience: string,
    claims: seq<Claim>,
    notBefore: int,
    expires: int)

  datatype IssuedToken = IssuedToken(descriptor: TokenDescriptor, text: string)

  /** `ArgumentException.ThrowIfNullOrWhiteSpace(arg)`. */
  function GuardNotBlank(arg: Option<string>, paramName: string): (r: Option<Exception>)
    ensures r.None? <==> !IsNullOrWhiteSpace(arg)
    ensures arg.None? ==> r == Some(ArgumentNull(paramName))
    ensures arg.Some? && r.Some? ==> r == Some(Argument(paramName))
  {
    if arg.None? then Some(ArgumentNull(paramName))
    else if IsBlank(arg.value) then Some(Argument(paramName))
    else None
  }

  /** The descriptor `GenerateTokenAsync` hands to the library: the configured
      issuer and audience, the claims built for the user, not valid before the
      third clock read and expiring `ExpirationMinutes` after the second. */
  function Descriptor(svc: Service, userId: string, username: string, roles: Option<seq<string>>,
                      jti: string, clocks: TokenClocks): (d: TokenDescriptor)
    requires SettingsAcceptable(svc.settings)
    ensures d.issuer == svc.settings.issuer.value && d.audience == svc.settings.audience.value
    ensures d.claims == BuildClaims(userId, username, roles, jti, clocks.iatSeconds)
    ensures d.notBefore == clocks.notBeforeRead
    ensures d.expires == clocks.expiryRead + 60 * svc.settings.expirationMinutes
  {
    TokenDescriptor(
      svc.settings.issuer.value,
      svc.settings.audience.value,
      BuildClaims(userId, username, roles, jti, clocks.iatSeconds),
      clocks.notBeforeRead,
      clocks.expiryRead + 60 * svc.settings.expirationMinutes)
  }

  /** `GenerateTokenAsync`. The guards on `userId` then `username` throw
      before anything else; a failure inside the library becomes
      `InvalidOperationException`. The token expires `ExpirationMinutes` after
      the expiry clock read. */
  function GenerateToken(svc: Service, userId: Option<string>, username: Option<string>, roles: Option<seq<string>>,
                         jti: string, clocks: TokenClocks, write: TokenDescriptor -> Option<string>): (r: Result<IssuedToken, Exception>)
    requires SettingsAcceptable(svc.settings)
    ensures IsNullOrWhiteSpace(userId) ==> r.Failure? && Some(r.error) == GuardNotBlank(userId, "userId")
    ensures !IsNullOrWhiteSpace(userId) && IsNullOrWhiteSpace(username) ==>
      r.Failure? && Some(r.error) == GuardNotBlank(username, "username")
    ensures r.Success? ==>
      var d := r.value.descriptor;
      && !IsNullOrWhiteSpace(userId) && !IsNullOrWhiteSpace(username)
      && d.claims == BuildClaims(userId.value, username.value, roles, jti, clocks.iatSeconds)
      && d.issuer == svc.settings.issuer.value && d.audience == svc.settings.audience.value
      && d.notBefore == clocks.notBeforeRead
      && d.expires == clocks.expiryRead + 60 * svc.settings.expirationMinutes
      && write(d) == Some(r.value.text)
    ensures !IsNullOrWhiteSpace(userId) && !IsNullOrWhiteSpace(username) && r.Failure? ==>
      r.error == InvalidOperation(TokenGenerationFailed)
    ensures !IsNullOrWhiteSpace(userId) && !IsNullOrWhiteSpace(username) ==>
      var d := Descriptor(svc, userId.value, username.value, roles, jti, clocks);
      && (r.Success? <==> write(d).Some?)
      && (r.Success? ==> r.value == IssuedToken(d, write(d).value))
  {
    var g1 := GuardNotBlank(userId, "userId");
    var g2 := GuardNotBlank(username, "username");
    if g1.Some? then Failure(g1.value)
    else if g2.Some? then Failure(g2.value)
    else
      var d := Descriptor(svc, userId.value, username.value, roles, jti, clocks);
      match write(d)
      case None => Failure(InvalidOperation(TokenGenerationFailed))
      case Some(text) => Success(IssuedToken(d, text))
  }

  /** A token's lifetime is the configured number of minutes when both clock
      reads agree. */
  lemma TokenLifetime(svc: Service, userId: Option<string>, username: Option<string>, roles: Option<seq<string>>,
                      jti: string, clocks: TokenClocks, write: TokenDescriptor -> Option<string>)
    requires SettingsAcceptable(svc.settings)
    requires clocks.expiryRead == clocks.notBeforeRead
    requires GenerateToken(svc, userId, username, roles, jti, clocks, write).Success?
    ensures var d := GenerateToken(svc, userId, username, roles, jti, clocks, write).value.descriptor;
      d.expires - d.notBefore == 60 * svc.settings.expirationMinutes && d.expires > d.notBefore
  {
  }

  // ---------------------------------------------------------------------------
  // Validating a token

  const HmacSha256: string := "HS256"

  /** Ordinal case-insensitive comparison with "HS256" accepts exactly the four
      spellings that differ in the case of the two letters. */
  lemma AcceptedAlgorithmSpellings(alg: string)
    ensures EqualsIgnoreCase(alg, HmacSha256) <==> alg in {"HS256", "Hs256", "hS256", "hs256"}
  {
    if EqualsIgnoreCase(alg, HmacSha256) {
      assert AsciiUpper(alg[0]) == 'H' && AsciiUpper(alg[1]) == 'S';
      assert AsciiUpper(alg[2]) == '2' && AsciiUpper(alg[3]) == '5' && AsciiUpper(alg[4]) == '6';
      assert alg[0] == 'H' || alg[0] == 'h';
      assert alg[1] == 'S' || alg[1] == 's';
      assert alg[2] == '2' && alg[3] == '5' && alg[4] == '6';
      assert alg == [alg[0], alg[1], '2', '5', '6'];
      if alg[0] == 'H' {
        if alg[1] == 'S' { assert alg == "HS256"; } else { assert alg == "Hs256"; }
      } else {
        if alg[1] == 'S' { assert alg == "hS256"; } else { assert alg == "hs256"; }
      }
    }
  }

  /** What the library reports for a token: `CanReadToken` false, or a
      validated principal together with the header algorithm when the
      validated token is a `JwtSecurityToken`, or the exception it threw. */
  datatype Verdict =
    | Unreadable
    | Validated(principal: seq<Claim>, algorithm: Option<string>)
    | Expired
    | InvalidSignature
    | OtherSecurityFailure
    | UnexpectedFailure

  /** The inner `ValidateToken`: it never throws. It returns the principal
      only for a validated token whose algorithm, when known, is HS256 in any
      letter case; every other verdict gives null. */
  function ValidateVerdict(v: Verdict): (r: Option<seq<Claim>>)
    ensures r.Some? <==> v.Validated? && (v.algorithm.None? || EqualsIgnoreCase(v.algorithm.value, HmacSha256))
    ensures r.Some? ==> r.value == v.principal
  {
    match v
    case Validated(principal, alg) =>
      if alg.Some? && !EqualsIgnoreCase(alg.value, HmacSha256) then None else Some(principal)
    case _ => None
  }

  /** `ValidateTokenAsync`: only a null or blank token throws (before the
      library is consulted); otherwise the result is the verdict's. */
  function ValidateToken(token: Option<string>, v: Verdict): (r: Result<Option<seq<Claim>>, Exception>)
    ensures r.Failure? <==> IsNullOrWhiteSpace(token)
    ensures r.Failure? ==> Some(r.error) == GuardNotBlank(token, "token")
    ensures r.Success? ==> r.value == ValidateVerdict(v)
  {
    match GuardNotBlank(token, "token")
    case Some(e) => Failure(e)
    case None => Success(ValidateVerdict(v))
  }

  /** `GetUserIdFromTokenAsync`: the `NameIdentifier` of a valid token's
      principal, null for an invalid token; a blank token throws. */
  function GetUserIdFromToken(token: Option<string>, v: Verdict): (r: Result<Option<string>, Exception>)
    ensures r.Failure? <==> IsNullOrWhiteSpace(token)
    ensures r.Success? && ValidateVerdict(v).None? ==> r.value.None?
    ensures r.Success? && ValidateVerdict(v).Some? ==> r.value == FindFirst(v.principal, NameIdentifierType)
  {
    match ValidateToken(token, v)
    case Failure(e) => Failure(e)
    case Success(None) => Success(None)
    case Success(Some(principal)) => Success(FindFirst(principal, NameIdentifierType))
  }

  /** When the library hands back the claims the service issued, the user id
      read from the token is the one it was issued for. */
  lemma UserIdOfIssuedToken(token: string, userId: string, username: string, roles: Option<seq<string>>,
                            jti: string, iatSeconds: int, alg: Option<string>)
    requires !IsBlank(token)
    requires alg.None? || EqualsIgnoreCase(alg.value, HmacSha256)
    ensures GetUserIdFromToken(Some(token), Validated(BuildClaims(userId, username, roles, jti, iatSeconds), alg))
      == Success(Some(userId))
  {
    ClaimsRoundTrip(userId, username, roles, jti, iatSeconds);
  }
}

=== FILE: menu_controller.dfy ===
/** `MenuController`: each action calls one service operation and turns its
    outcome into a status code and envelope. An action catches only the
    exception kinds it lists; every other exception becomes the generic `500`.
    Each action is modelled twice: as a function of the service outcome (a
    `Result` whose failure may be any exception, including a database error the
    store model does not raise), and as an endpoint over the store. */
module MenuController {
  import opened Wrappers
  import opened Text
  import opened Entities
  import opened Dtos
  import opened Exceptions
  import opened Responses
  import Repository
  import MenuService
  import Middleware

  type Store = Repository.Store

  const GetAllMessage: string := "Menus obtidos com sucesso"
  const SearchMessage: string := "Busca realizada com sucesso"
  const GetByIdMessage: string := "Menu obtido com sucesso"
  const CreatedMessage: string := "Menu criado com sucesso"
  const UpdatedMessage: string := "Menu atualizado com sucesso"
  const DeletedMessage: string := "Menu deletado com sucesso"

  /** The catch clauses of an action: `NotFoundException` becomes `404` and
      `BusinessValidationException` becomes `400` when the action catches them,
      both carrying the exception's message; anything else is the generic `500`. */
  function Catch<T>(e: Exception, catchesNotFound: bool, catchesBusiness: bool): (r: ActionResult<T>)
    ensures !r.body.success && r.body.data.None? && r.body.errors.None? && r.routeId.None?
    ensures r.status == Status404NotFound <==> catchesNotFound && e.NotFound?
    ensures r.status == Status400BadRequest <==> catchesBusiness && e.BusinessValidation?
    ensures r.status != Status500InternalServerError ==> IsDomainException(e) && r.body.message == Some(Message(e))
    ensures r.status == Status500InternalServerError <==> r == InternalError()
  {
    if catchesNotFound && e.NotFound? then
      ActionResult(Status404NotFound, ErrorResponse(Message(e), None), None)
    else if catchesBusiness && e.BusinessValidation? then
      ActionResult(Status400BadRequest, ErrorResponse(Message(e), None), None)
    else
      InternalError()
  }

  // ---------------------------------------------------------------------------
  // Actions as functions of the service outcome

  /** `GET /api/menu`: 200 with the list; any exception is 500. */
  function GetAll(o: Result<seq<MenuDto>, Exception>): (r: ActionResult<seq<MenuDto>>)
    ensures r.status == Status200OK <==> o.Success?
    ensures o.Success? ==> r.body == SuccessResponse(o.value, Some(GetAllMessage))
    ensures o.Failure? ==> r == InternalError()
  {
    match o
    case Success(menus) => Ok(SuccessResponse(menus, Some(GetAllMessage)))
    case Failure(e) => Catch(e, false, false)
  }

  /** The term `Search` passes to the service: a missing `nome` is the empty string. */
  function SearchArgument(nome: Option<string>): (t: string)
    ensures nome.None? ==> t == ""
    ensures nome.Some? ==> t == nome.value
  {
    nome.GetOr("")
  }

  /** `GET /api/menu/search`: 200 with the list; any exception is 500. */
  function Search(o: Result<seq<MenuDto>, Exception>): (r: ActionResult<seq<MenuDto>>)
    ensures r.status == Status200OK <==> o.Success?
    ensures o.Success? ==> r.body == SuccessResponse(o.value, Some(SearchMessage))
    ensures o.Failure? ==> r == InternalError()
  {
    match o
    case Success(menus) => Ok(SuccessResponse(menus, Some(SearchMessage)))
    case Failure(e) => Catch(e, false, false)
  }

  /** `GET /api/menu/{id}`: 200, or 404 for `NotFound`, or 500. */
  function GetById(o: Result<MenuDto, Exception>): (r: ActionResult<MenuDto>)
    ensures r.status == Status200OK <==> o.Success?
    ensures o.Success? ==> r.body == SuccessResponse(o.value, Some(GetByIdMessage))
    ensures r.status == Status404NotFound <==> o.Failure? && o.error.NotFound?
    ensures r.status == Status404NotFound ==> r.body == ErrorResponse(Message(o.error), None)
    ensures o.Failure? && !o.error.NotFound? ==> r == InternalError()
  {
    match o
    case Success(menu) => Ok(SuccessResponse(menu, Some(GetByIdMessage)))
    case Failure(e) => Catch(e, true, false)
  }

  /** `POST /api/menu`: 201 whose route id is the created menu's id, or 400 for
      `BusinessValidation`, or 500. A `NotFound` here is not caught. */
  function Create(o: Result<MenuDto, Exception>): (r: ActionResult<MenuDto>)
    ensures r.status == Status201Created <==> o.Success?
    ensures o.Success? ==> r.body == SuccessResponse(o.value, Some(CreatedMessage)) && r.routeId == Some(o.value.id)
    ensures r.status == Status400BadRequest <==> o.Failure? && o.error.BusinessValidation?
    ensures r.status == Status400BadRequest ==> r.body == ErrorResponse(Message(o.error), None)
    ensures o.Failure? && !o.error.BusinessValidation? ==> r == InternalError()
  {
    match o
    case Success(menu) => ActionResult(Status201Created, SuccessResponse(menu, Some(CreatedMessage)), Some(menu.id))
    case Failure(e) => Catch(e, false, true)
  }

  /** `PUT /api/menu/{id}`: 200, or 404 for `NotFound`, or 400 for
      `BusinessValidation`, or 500. */
  function Update(o: Result<MenuDto, Exception>): (r: ActionResult<MenuDto>)
    ensures r.status == Status200OK <==> o.Success?
    ensures o.Success? ==> r.body == SuccessResponse(o.value, Some(UpdatedMessage))
    ensures r.status == Status404NotFound <==> o.Failure? && o.error.NotFound?
    ensures r.status == Status400BadRequest <==> o.Failure? && o.error.BusinessValidation?
    ensures r.status != Status200OK && r.status != Status500InternalServerError ==>
      o.Failure? && IsDomainException(o.error) && r.body == ErrorResponse(Message(o.error), None)
    ensures o.Failure? && !o.error.NotFound? && !o.error.BusinessValidation? ==> r == InternalError()
  {
    match o
    case Success(menu) => Ok(SuccessResponse(menu, Some(UpdatedMessage)))
    case Failure(e) => Catch(e, true, true)
  }

  /** `DELETE /api/menu/{id}`: 200 with the service's boolean, or 404 for
      `NotFound`, or 500. */
  function Delete(o: Result<bool, Exception>): (r: ActionResult<bool>)
    ensures r.status == Status200OK <==> o.Success?
    ensures o.Success? ==> r.body == SuccessResponse(o.value, Some(DeletedMessage))
    ensures r.status == Status404NotFound <==> o.Failure? && o.error.NotFound?
    ensures r.status == Status404NotFound ==> r.body == ErrorResponse(Message(o.error), None)
    ensures o.Failure? && !o.error.NotFound? ==> r == InternalError()
  {
    match o
    case Success(b) => Ok(SuccessResponse(b, Some(DeletedMessage)))
    case Failure(e) => Catch(e, true, false)
  }

  // ---------------------------------------------------------------------------
  // Endpoints over the store

  /** The whole table, sorted by `Ordem`. */
  function GetAllEndpoint(s: Store): (r: ActionResult<seq<MenuDto>>)
    requires Repository.Valid(s)
    ensures r.status == Status200OK && r.body.data.Some?
    ensures MenuService.DtosSortedByOrdem(r.body.data.value)
    ensures forall m | Repository.Stored(s, m) :: MenuService.MapToDto(m) in r.body.data.value
    ensures var ds := r.body.data.value;
      && (forall i, j | 0 <= i < j < |ds| :: ds[i].id != ds[j].id)
      && (forall i | 0 <= i < |ds| :: ds[i].id in s.menus && ds[i] == MenuService.MapToDto(s.menus[ds[i].id]))
  {
    GetAll(Success(MenuService.GetAll(s)))
  }

  function SearchEndpoint(s: Store, nome: Option<string>): (r: ActionResult<seq<MenuDto>>)
    requires Repository.Valid(s)
    ensures r.status == Status200OK && r.body.data.Some?
    ensures var ds := r.body.data.value;
      forall i | 0 <= i < |ds| :: nome.None? || IsBlank(nome.value) || Contains(ds[i].nome, nome.value)
    ensures MenuService.DtosSortedByOrdem(r.body.data.value)
    ensures var ds := r.body.data.value;
      && (forall i, j | 0 <= i < j < |ds| :: ds[i].id != ds[j].id)
      && (forall i | 0 <= i < |ds| :: ds[i].id in s.menus && ds[i] == MenuService.MapToDto(s.menus[ds[i].id]))
    ensures forall m | Repository.Stored(s, m) && (nome.None? || IsBlank(nome.value) || Contains(m.nome, nome.value)) ::
      MenuService.MapToDto(m) in r.body.data.value
  {
    Search(Success(MenuService.SearchByName(s, SearchArgument(nome))))
  }

  /** A search without a name lists the same menus, in the same order, as
      `GET /api/menu`. */
  lemma SearchWithoutNameListsAll(s: Store)
    requires Repository.Valid(s)
    ensures SearchEndpoint(s, None).body.data == GetAllEndpoint(s).body.data
  {
    Repository.BlankSearchIsGetAll(s, "");
  }

  function GetByIdEndpoint(s: Store, id: int): (r: ActionResult<MenuDto>)
    requires Repository.Valid(s)
    ensures r.status == Status200OK <==> id in s.menus
    ensures id in s.menus ==> r.body.data == Some(MenuService.MapToDto(s.menus[id]))
    ensures id !in s.menus ==>
      r.status == Status404NotFound && r.body.message == Some(Message(NotFound(MenuEntity, id)))
  {
    GetById(MenuService.GetById(s, id))
  }

  /** The store after the request and the response. */
  function CreateEndpoint(s: Store, dto: CreateMenuDto, clock1: Instant, clock2: Instant): (r: (Store, ActionResult<MenuDto>))
    requires Repository.Valid(s)
    ensures Repository.Valid(r.0)
    ensures r.1.status == Status201Created <==> !MenuService.NameTaken(s, dto.nome, None)
    ensures r.1.status != Status201Created ==>
      && r.0 == s
      && r.1.status == Status400BadRequest
      && r.1.body.message == Some(MenuService.DuplicateNameMessage(dto.nome))
    ensures r.1.status == Status201Created ==>
      r.1.routeId.Some? && GetByIdEndpoint(r.0, r.1.routeId.value).body.data == r.1.body.data
  {
    var o := MenuService.Create(s, dto, clock1, clock2);
    if o.Failure? then (s, Create(Failure(o.error)))
    else (o.value.0, Create(Success(o.value.1)))
  }

  function UpdateEndpoint(s: Store, id: int, dto: UpdateMenuDto, clock: Instant): (r: (Store, ActionResult<MenuDto>))
    requires Repository.Valid(s)
    ensures Repository.Valid(r.0)
    ensures r.1.status == Status404NotFound <==> id !in s.menus
    ensures r.1.status == Status400BadRequest <==> id in s.menus && MenuService.NameTaken(s, dto.nome, Some(id))
    ensures r.1.status == Status200OK <==> id in s.menus && !MenuService.NameTaken(s, dto.nome, Some(id))
    ensures r.1.status != Status200OK ==> r.0 == s
  {
    var o := MenuService.Update(s, id, dto, clock);
    if o.Failure? then (s, Update(Failure(o.error)))
    else (o.value.0, Update(Success(o.value.1)))
  }

  function DeleteEndpoint(s: Store, id: int): (r: (Store, ActionResult<bool>))
    requires Repository.Valid(s)
    ensures Repository.Valid(r.0)
    ensures r.1.status == Status200OK <==> id in s.menus
    ensures r.1.status == Status200OK ==> r.1.body.data == Some(true) && r.0.menus == s.menus - {id}
    ensures r.1.status != Status200OK ==> r.0 == s && r.1.status == Status404NotFound
  {
    var o := MenuService.Delete(s, id);
    if o.Failure? then (s, Delete(Failure(o.error)))
    else (o.value.0, Delete(Success(o.value.1)))
  }

  // ---------------------------------------------------------------------------
  // Controller and middleware side by side

  /** Where an action catches an exception kind, it answers exactly as the
      global middleware would: same status, same message, no errors map. */
  lemma CaughtKindsAgreeWithMiddleware<T>(e: Exception, catchesNotFound: bool, catchesBusiness: bool)
    requires (catchesNotFound && e.NotFound?) || (catchesBusiness && e.BusinessValidation?)
    ensures var c := Catch<T>(e, catchesNotFound, catchesBusiness);
      var m := Middleware.HandleException(e);
      && c.status == m.status
      && c.body.success == m.body.success
      && c.body.message == m.body.message
      && c.body.errors == m.body.errors
  {
  }

  /** Where an action does not catch a domain exception, the controller and the
      middleware disagree: `Create` turns a `NotFound` into `500`, whereas the
      middleware would have answered `404`. */
  lemma UncaughtDomainExceptionIsInternalError(key: int)
    ensures Create(Failure(NotFound(MenuEntity, key))).status == Status500InternalServerError
    ensures Middleware.HandleException(NotFound(MenuEntity, key)).status == Status404NotFound
  {
  }

  /** No action's `500` depends on the exception that caused it. */
  lemma InternalErrorsRevealNothing(e1: Exception, e2: Exception)
    requires Update(Failure(e1)).status == Status500InternalServerError
    requires Update(Failure(e2)).status == Status500InternalServerError
    ensures Update(Failure(e1)) == Update(Failure(e2))
    ensures GetAll(Failure(e1)) == GetAll(Failure(e2))
    ensures Search(Failure(e1)) == Search(Failure(e2))
    ensures GetById(Failure(e1)) == GetById(Failure(e2))
    ensures Create(Failure(e1)) == Create(Failure(e2))
    ensures Delete(Failure(e1)) == Delete(Failure(e2))
  {
  }
}

=== FILE: menu_service.dfy ===
/** `MenuService`: the rule pipeline in front of the repository. Reads map
    each stored menu to its DTO; writes check that the id exists and that the
    name is not taken (check-then-act), then write and map the result. Clock
    reads (`DateTime.UtcNow`) are parameters. */
module MenuService {
  import opened Wrappers
  import opened Text
  import opened Entities
  import opened Dtos
  import opened Exceptions
  import Repository

  type Store = Repository.Store

  /** The string a status is rendered as in a `MenuDto`. */
  function StatusName(s: MenuStatus): (r: string)
    ensures r == StatusAtivo || r == StatusInativo
    ensures r == StatusAtivo <==> s == Ativo
  {
    if s == Ativo then StatusAtivo else StatusInativo
  }

  /** The status a request string selects: only the exact string "Ativo" is
      `Ativo`, every other string is `Inativo`. */
  function StatusFromName(s: string): (r: MenuStatus)
    ensures r == Ativo <==> s == StatusAtivo
  {
    if s == StatusAtivo then Ativo else Inativo
  }

  /** The two accepted status strings survive being read and rendered again,
      and every status survives being rendered and read again. */
  lemma StatusNameRoundTrip(s: string, st: MenuStatus)
    ensures s == StatusAtivo || s == StatusInativo ==> StatusName(StatusFromName(s)) == s
    ensures StatusFromName(StatusName(st)) == st
  {
  }

  /** `MapToDto`: every field copied, the status rendered as its name. */
  function MapToDto(m: Menu): (d: MenuDto)
    ensures d.id == m.id && d.nome == m.nome && d.ordem == m.ordem && d.icone == m.icone
    ensures d.descricao == m.descricao
    ensures d.criadoEm == m.criadoEm && d.atualizadoEm == m.atualizadoEm
    ensures StatusFromName(d.status) == m.status
    ensures d.status == StatusAtivo <==> m.status == Ativo
    ensures d.status == StatusInativo <==> m.status == Inativo
  {
    MenuDto(m.id, m.nome, m.ordem, m.icone, m.descricao, StatusName(m.status), m.criadoEm, m.atualizadoEm)
  }

  /** No information is lost by `MapToDto`: two menus with the same DTO are equal. */
  lemma MapToDtoInjective(a: Menu, b: Menu)
    requires MapToDto(a) == MapToDto(b)
    ensures a == b
  {
    assert StatusFromName(MapToDto(a).status) == a.status;
  }

  predicate DtosSortedByOrdem(ds: seq<MenuDto>)
  {
    forall i, j | 0 <= i < j < |ds| :: ds[i].ordem <= ds[j].ordem
  }

  /** `menus.Select(MapToDto)`. */
  function MapAll(xs: seq<Menu>): (r: seq<MenuDto>)
    ensures |r| == |xs|
    ensures forall i | 0 <= i < |r| :: r[i] == MapToDto(xs[i])
  {
    seq(|xs|, i requires 0 <= i < |xs| => MapToDto(xs[i]))
  }

  lemma MapAllFacts(s: Store, xs: seq<Menu>, r: seq<MenuDto>)
    requires r == MapAll(xs)
    requires Repository.SortedByOrdem(xs)
    requires Repository.DistinctIds(xs)
    requires forall m | m in xs :: Repository.Stored(s, m)
    ensures DtosSortedByOrdem(r)
    ensures forall m | m in xs :: MapToDto(m) in r
    ensures forall i | 0 <= i < |r| :: r[i].id in s.menus && r[i] == MapToDto(s.menus[r[i].id])
    ensures forall i, j | 0 <= i < j < |r| :: r[i].id != r[j].id
  {
    forall m | m in xs
      ensures MapToDto(m) in r
    {
      var i :| 0 <= i < |xs| && xs[i] == m;
      assert r[i] == MapToDto(m);
    }
    forall i | 0 <= i < |r|
      ensures r[i].id in s.menus && r[i] == MapToDto(s.menus[r[i].id])
    {
      assert xs[i] in xs;
      assert Repository.Stored(s, xs[i]);
    }
  }

  /** `GetAllAsync`: the DTO of every stored menu, once each, sorted by `Ordem`. */
  function GetAll(s: Store): (r: seq<MenuDto>)
    requires Repository.Valid(s)
    ensures DtosSortedByOrdem(r)
    ensures forall i, j | 0 <= i < j < |r| :: r[i].id != r[j].id
    ensures forall m | Repository.Stored(s, m) :: MapToDto(m) in r
    ensures forall i | 0 <= i < |r| :: r[i].id in s.menus && r[i] == MapToDto(s.menus[r[i].id])
  {
    var xs := Repository.GetAll(s);
    var r := MapAll(xs);
    MapAllFacts(s, xs, r);
    r
  }

  /** `SearchByNameAsync`: the DTOs of the menus whose name contains `nome`
      (all of them when `nome` is blank), sorted by `Ordem`. */
  function SearchByName(s: Store, nome: string): (r: seq<MenuDto>)
    requires Repository.Valid(s)
    ensures DtosSortedByOrdem(r)
    ensures forall i, j | 0 <= i < j < |r| :: r[i].id != r[j].id
    ensures forall m | Repository.Stored(s, m) && (IsBlank(nome) || Contains(m.nome, nome)) :: MapToDto(m) in r
    ensures forall i | 0 <= i < |r| :: r[i].id in s.menus && r[i] == MapToDto(s.menus[r[i].id])
    ensures forall i | 0 <= i < |r| :: IsBlank(nome) || Contains(r[i].nome, nome)
  {
    var xs := Repository.SearchByName(s, nome);
    var r := MapAll(xs);
    MapAllFacts(s, xs, r);
    r
  }

  /** `GetByIdAsync`: the DTO of the menu with that id, or `NotFound`. */
  function GetById(s: Store, id: int): (r: Result<MenuDto, Exception>)
    requires Repository.Valid(s)
    ensures r.Success? <==> id in s.menus
    ensures r.Success? ==> r.value == MapToDto(s.menus[id])
    ensures r.Failure? ==> r.error == NotFound(MenuEntity, id)
  {
    match Repository.GetById(s, id)
    case None => Failure(NotFound(MenuEntity, id))
    case Some(m) => Success(MapToDto(m))
  }

  /** Some stored menu other than `except` carries the name `nome`. */
  ghost predicate NameTaken(s: Store, nome: string, except: Option<int>)
  {
    exists m | Repository.Stored(s, m) :: m.nome == nome && (except.None? || m.id != except.value)
  }

  function DuplicateNameMessage(nome: string): (r: string)
    ensures |r| > |nome| + 1 && r[|r| - 1] == '\'' && r[|r| - 1 - |nome|..|r| - 1] == nome
    ensures r[|r| - 2 - |nome|] == '\''
  {
    "Já existe um menu com o nome '" + nome + "'"
  }

  /** The duplicate-name messages name the offending name: two messages of
      one kind are equal exactly when the names are, and the message for a
      create never reads like the message for an update. */
  lemma DuplicateMessagesIdentifyName(a: string, b: string)
    ensures DuplicateNameMessage(a) == DuplicateNameMessage(b) <==> a == b
    ensures DuplicateOtherNameMessage(a) == DuplicateOtherNameMessage(b) <==> a == b
    ensures DuplicateNameMessage(a) != DuplicateOtherNameMessage(b)
  {
    assert DuplicateNameMessage(a)[10] == 'u';
    assert DuplicateOtherNameMessage(b)[10] == 'o';
  }

  function DuplicateOtherNameMessage(nome: string): (r: string)
    ensures |r| > |nome| + 1 && r[|r| - 1] == '\'' && r[|r| - 1 - |nome|..|r| - 1] == nome
    ensures r[|r| - 2 - |nome|] == '\''
  {
    "Já existe outro menu com o nome '" + nome + "'"
  }

  /** `CreateAsync`. A taken name fails with `BusinessValidation` before anything
      is written; otherwise exactly one menu is added, copying the body's fields,
      with `Ativo` only for the status string "Ativo", created at `clock1` and
      updated at `clock2` (two separate clock reads). */
  function Create(s: Store, dto: CreateMenuDto, clock1: Instant, clock2: Instant): (r: Result<(Store, MenuDto), Exception>)
    requires Repository.Valid(s)
    ensures r.Failure? <==> NameTaken(s, dto.nome, None)
    ensures r.Failure? ==> r.error == BusinessValidation(DuplicateNameMessage(dto.nome))
    ensures r.Success? ==>
      var (s', d) := r.value;
      && Repository.Valid(s')
      && d.id !in s.menus
      && s'.menus.Keys == s.menus.Keys + {d.id}
      && (forall k | k in s.menus :: s'.menus[k] == s.menus[k])
      && var m := s'.menus[d.id];
      && m.nome == dto.nome && m.ordem == dto.ordem && m.icone == dto.icone && m.descricao == dto.descricao
      && (m.status == Ativo <==> dto.status == StatusAtivo)
      && m.criadoEm == clock1 && m.atualizadoEm == clock2
      && d == MapToDto(m)
  {
    if Repository.ExistsByName(s, dto.nome, None) then
      Failure(BusinessValidation(DuplicateNameMessage(dto.nome)))
    else
      var menu := NewMenu(clock1, clock2).(
        nome := dto.nome,
        ordem := dto.ordem,
        icone := dto.icone,
        descricao := dto.descricao,
        status := StatusFromName(dto.status),
        criadoEm := clock1,
        atualizadoEm := clock2);
      var (s', created) := Repository.Create(s, menu);
      Success((s', MapToDto(created)))
  }

  /** `after` is `before` with the body's five fields copied onto it and
      `AtualizadoEm` set to the clock; its id and `CriadoEm` are kept. */
  predicate Updated(before: Menu, after: Menu, dto: UpdateMenuDto, clock: Instant)
  {
    && after.id == before.id && after.criadoEm == before.criadoEm
    && after.nome == dto.nome && after.ordem == dto.ordem && after.icone == dto.icone
    && after.descricao == dto.descricao
    && (after.status == Ativo <==> dto.status == StatusAtivo)
    && after.atualizadoEm == clock
  }

  /** The tracked entity after the update. */
  function Edited(menu: Menu, dto: UpdateMenuDto, clock: Instant): (e: Menu)
    ensures Updated(menu, e, dto, clock)
  {
    menu.(
      nome := dto.nome,
      ordem := dto.ordem,
      icone := dto.icone,
      descricao := dto.descricao,
      status := StatusFromName(dto.status),
      atualizadoEm := clock)
  }

  /** `UpdateAsync`. An absent id fails with `NotFound` (checked first); a name
      another menu carries fails with `BusinessValidation`; otherwise the menu's
      five editable fields and `AtualizadoEm` are overwritten and nothing else
      in the table changes. */
  function Update(s: Store, id: int, dto: UpdateMenuDto, clock: Instant): (r: Result<(Store, MenuDto), Exception>)
    requires Repository.Valid(s)
    ensures id !in s.menus ==> r == Failure(NotFound(MenuEntity, id))
    ensures id in s.menus && NameTaken(s, dto.nome, Some(id)) ==>
      r == Failure(BusinessValidation(DuplicateOtherNameMessage(dto.nome)))
    ensures r.Success? <==> id in s.menus && !NameTaken(s, dto.nome, Some(id))
    ensures r.Success? ==> Repository.Valid(r.value.0) && r.value.0.nextId == s.nextId
    ensures r.Success? ==> r.value.0.menus.Keys == s.menus.Keys
    ensures r.Success? ==> forall k | k in s.menus && k != id :: r.value.0.menus[k] == s.menus[k]
    ensures r.Success? ==> Updated(s.menus[id], r.value.0.menus[id], dto, clock)
    ensures r.Success? ==> r.value.1 == MapToDto(r.value.0.menus[id])
  {
    match Repository.GetById(s, id)
    case None => Failure(NotFound(MenuEntity, id))
    case Some(menu) =>
      if Repository.ExistsByName(s, dto.nome, Some(id)) then
        Failure(BusinessValidation(DuplicateOtherNameMessage(dto.nome)))
      else
        var (s', updated) := Repository.Update(s, Edited(menu, dto, clock));
        Success((s', MapToDto(updated)))
  }

  /** `DeleteAsync`. An absent id fails with `NotFound`; otherwise the result is
      true and that menu alone is gone. */
  function Delete(s: Store, id: int): (r: Result<(Store, bool), Exception>)
    requires Repository.Valid(s)
    ensures r.Failure? <==> id !in s.menus
    ensures r.Failure? ==> r.error == NotFound(MenuEntity, id)
    ensures r.Success? ==>
      && r.value.1
      && Repository.Valid(r.value.0)
      && r.value.0.menus == s.menus - {id}
      && r.value.0.nextId == s.nextId
  {
    match Repository.GetById(s, id)
    case None => Failure(NotFound(MenuEntity, id))
    case Some(_) => Success(Repository.Delete(s, id))
  }

  // ---------------------------------------------------------------------------
  // Properties of the pipeline

  /** No two stored menus share a name. Nothing in the store enforces it; the
      service's checks keep it when requests run one after another. */
  ghost predicate NamesDistinct(s: Store)
  {
    forall j, k | j in s.menus && k in s.menus && j != k :: s.menus[j].nome != s.menus[k].nome
  }

  /** A successful create keeps names distinct: the new name was not taken. */
  lemma CreateKeepsNamesDistinct(s: Store, dto: CreateMenuDto, t1: Instant, t2: Instant)
    requires Repository.Valid(s) && NamesDistinct(s)
    requires Create(s, dto, t1, t2).Success?
    ensures NamesDistinct(Create(s, dto, t1, t2).value.0)
  {
    forall k | k in s.menus
      ensures s.menus[k].nome != dto.nome
    {
      assert Repository.Stored(s, s.menus[k]);
    }
  }

  /** A successful update keeps names distinct: no other menu had the new name. */
  lemma UpdateKeepsNamesDistinct(s: Store, id: int, dto: UpdateMenuDto, clock: Instant)
    requires Repository.Valid(s) && NamesDistinct(s)
    requires Update(s, id, dto, clock).Success?
    ensures NamesDistinct(Update(s, id, dto, clock).value.0)
  {
    forall k | k in s.menus && k != id
      ensures s.menus[k].nome != dto.nome
    {
      assert Repository.Stored(s, s.menus[k]);
    }
  }

  /** A menu may keep its own name: its own id is excluded from the check. */
  lemma UpdateToOwnNameSucceeds(s: Store, id: int, dto: UpdateMenuDto, clock: Instant)
    requires Repository.Valid(s) && NamesDistinct(s)
    requires id in s.menus && dto.nome == s.menus[id].nome
    ensures Update(s, id, dto, clock).Success?
  {
  }

  /** Reading back a created menu by its id gives the DTO create returned, and
      a deleted menu can no longer be read. */
  lemma CreateThenGetById(s: Store, dto: CreateMenuDto, t1: Instant, t2: Instant)
    requires Repository.Valid(s)
    requires Create(s, dto, t1, t2).Success?
    ensures var (s', d) := Create(s, dto, t1, t2).value;
      && GetById(s', d.id) == Success(d)
      && d.nome == dto.nome && d.ordem == dto.ordem && d.icone == dto.icone && d.descricao == dto.descricao
      && Delete(s', d.id).Success?
      && GetById(Delete(s', d.id).value.0, d.id) == Failure(NotFound(MenuEntity, d.id))
  {
  }

  /** A status string the validator accepts survives create-then-map unchanged;
      a create body that omits the status creates an active menu. */
  lemma CreatedStatusRoundTrip(s: Store, dto: CreateMenuDto, t1: Instant, t2: Instant)
    requires Repository.Valid(s)
    requires Create(s, dto, t1, t2).Success?
    ensures dto.status == StatusAtivo || dto.status == StatusInativo ==>
      Create(s, dto, t1, t2).value.1.status == dto.status
    ensures dto.status == DefaultCreateMenuDto().status ==>
      Create(s, dto, t1, t2).value.0.menus[Create(s, dto, t1, t2).value.1.id].status == Ativo
  {
  }

  /** `CriadoEm` and `AtualizadoEm` of a new menu agree exactly when the two
      clock reads do. */
  lemma CreatedTimestamps(s: Store, dto: CreateMenuDto, t1: Instant, t2: Instant)
    requires Repository.Valid(s)
    requires Create(s, dto, t1, t2).Success?
    ensures var d := Create(s, dto, t1, t2).value.1;
      d.criadoEm == d.atualizadoEm <==> t1 == t2
  {
  }
}

=== FILE: middleware.dfy ===
/** `GlobalExceptionMiddleware`: the last line of defence that turns an
    exception escaping the pipeline into a status code and an error envelope.
    The switch tests the kinds in source order, so `NotFound` is matched before
    the general `DomainException` case. Logging and JSON serialisation are not
    part of the model. */
module Middleware {
  import opened Wrappers
  import opened Validators
  import opened Exceptions
  import opened Responses

  const ValidationErrorMessage: string := "Erro de validação"

  /** The messages of the failures on property `p`, in their original order. */
  function MessagesFor(fs: seq<ValidationFailure>, p: string): (ms: seq<string>)
    ensures |ms| <= |fs|
    ensures ms != [] <==> exists i | 0 <= i < |fs| :: PropertyName(fs[i].property) == p
    ensures forall msg :: msg in ms <==>
      exists i | 0 <= i < |fs| :: PropertyName(fs[i].property) == p && fs[i].errorMessage == msg
  {
    SelectedExactly(fs, p);
    Selected(fs, p)
  }

  /** `Where(e => e.PropertyName == p).Select(e => e.ErrorMessage)`, built from
      the last failure backwards. */
  function Selected(fs: seq<ValidationFailure>, p: string): seq<string>
  {
    if fs == [] then []
    else
      var last := fs[|fs| - 1];
      Selected(fs[..|fs| - 1], p) + (if PropertyName(last.property) == p then [last.errorMessage] else [])
  }

  lemma {:induction false} SelectedExactly(fs: seq<ValidationFailure>, p: string)
    ensures |Selected(fs, p)| <= |fs|
    ensures ExactlyMessagesOf(Selected(fs, p), fs, p)
    ensures Selected(fs, p) != [] <==> exists i | 0 <= i < |fs| :: PropertyName(fs[i].property) == p
  {
    var ms := Selected(fs, p);
    if fs != [] {
      var init := fs[..|fs| - 1];
      SelectedExactly(init, p);
      MessagesForStep(fs, p, Selected(init, p));
    }
    if ms != [] {
      assert ms[0] in ms;
    }
    if exists i | 0 <= i < |fs| :: PropertyName(fs[i].property) == p {
      var i :| 0 <= i < |fs| && PropertyName(fs[i].property) == p;
      assert fs[i].errorMessage in ms;
    }
  }

  /** `ms` holds the messages of the failures on `p` and no others. */
  ghost predicate ExactlyMessagesOf(ms: seq<string>, fs: seq<ValidationFailure>, p: string)
  {
    forall msg :: msg in ms <==>
      exists i | 0 <= i < |fs| :: PropertyName(fs[i].property) == p && fs[i].errorMessage == msg
  }

  /** The messages of all failures are those of all but the last, plus the
      last one's when it is on `p`. */
  lemma MessagesForStep(fs: seq<ValidationFailure>, p: string, prev: seq<string>)
    requires fs != []
    requires ExactlyMessagesOf(prev, fs[..|fs| - 1], p)
    ensures var last := fs[|fs| - 1];
      ExactlyMessagesOf(prev + (if PropertyName(last.property) == p then [last.errorMessage] else []), fs, p)
  {
    var init := fs[..|fs| - 1];
    assert forall i | 0 <= i < |init| :: init[i] == fs[i];
  }

  /** One failure contributes its message exactly when it is on `p`. */
  lemma MessagesForSingle(f: ValidationFailure, p: string)
    ensures MessagesFor([f], p) == if PropertyName(f.property) == p then [f.errorMessage] else []
  {
    assert [f][..0] == [];
    assert Selected([f][..0], p) == [];
  }

  /** Messages are collected in the order of the failures, duplicates kept:
      the messages of two runs of failures are those of the first run
      followed by those of the second. */
  lemma MessagesForAppend(fs: seq<ValidationFailure>, gs: seq<ValidationFailure>, p: string)
    ensures MessagesFor(fs + gs, p) == MessagesFor(fs, p) + MessagesFor(gs, p)
  {
    SelectedAppend(fs, gs, p);
  }

  lemma {:induction false} SelectedAppend(fs: seq<ValidationFailure>, gs: seq<ValidationFailure>, p: string)
    ensures Selected(fs + gs, p) == Selected(fs, p) + Selected(gs, p)
  {
    if gs == [] {
      assert fs + gs == fs;
    } else {
      var all, init, last := fs + gs, gs[..|gs| - 1], gs[|gs| - 1];
      var own := if PropertyName(last.property) == p then [last.errorMessage] else [];
      assert all[|all| - 1] == last;
      assert all[..|all| - 1] == fs + init;
      assert Selected(all, p) == Selected(fs + init, p) + own;
      assert Selected(gs, p) == Selected(init, p) + own;
      SelectedAppend(fs, init, p);
      var a, b := Selected(fs, p), Selected(init, p);
      assert a + b + own == a + (b + own);
    }
  }

  /** The property names the failures mention. */
  function Properties(fs: seq<ValidationFailure>): set<string>
  {
    set i | 0 <= i < |fs| :: PropertyName(fs[i].property)
  }

  /** `Errors.GroupBy(e => e.PropertyName).ToDictionary(g => g.Key, g => messages)`:
      one key per distinct property name, holding that property's messages in
      order. */
  function GroupErrors(fs: seq<ValidationFailure>): (m: ErrorMap)
    ensures m.Keys == Properties(fs)
    ensures forall p | p in m :: m[p] == MessagesFor(fs, p)
    ensures forall p, msg | p in m && msg in m[p] ::
      exists i | 0 <= i < |fs| :: PropertyName(fs[i].property) == p && fs[i].errorMessage == msg
  {
    if fs == [] then map[]
    else
      var last := fs[|fs| - 1];
      var init := fs[..|fs| - 1];
      var m := GroupErrors(init);
      var p := PropertyName(last.property);
      GroupStep(fs);
      MessagesForLast(fs);
      m[p := (if p in m then m[p] else []) + [last.errorMessage]]
  }

  /** Each property's messages are those before the last failure, plus the
      last failure's when it is on that property. */
  lemma MessagesForLast(fs: seq<ValidationFailure>)
    requires fs != []
    ensures var last := fs[|fs| - 1];
      forall q :: MessagesFor(fs, q) == MessagesFor(fs[..|fs| - 1], q) + (if PropertyName(last.property) == q then [last.errorMessage] else [])
  {
  }

  lemma GroupStep(fs: seq<ValidationFailure>)
    requires fs != []
    ensures Properties(fs) == Properties(fs[..|fs| - 1]) + {PropertyName(fs[|fs| - 1].property)}
  {
    var init := fs[..|fs| - 1];
    forall p | p in Properties(fs)
      ensures p in Properties(init) + {PropertyName(fs[|fs| - 1].property)}
    {
      var i :| 0 <= i < |fs| && PropertyName(fs[i].property) == p;
      if i < |init| {
        assert init[i] == fs[i];
      }
    }
    forall p | p in Properties(init)
      ensures p in Properties(fs)
    {
      var i :| 0 <= i < |init| && PropertyName(init[i].property) == p;
      assert fs[i] == init[i];
    }
  }

  /** No message is lost by grouping: every failure's message is held under
      its property's key. (That nothing is invented is stated by `GroupErrors`.) */
  lemma {:induction false} GroupingKeepsEveryMessage(fs: seq<ValidationFailure>, i: int)
    requires 0 <= i < |fs|
    ensures PropertyName(fs[i].property) in GroupErrors(fs)
    ensures fs[i].errorMessage in GroupErrors(fs)[PropertyName(fs[i].property)]
  {
    var init := fs[..|fs| - 1];
    var p := PropertyName(fs[i].property);
    if i < |fs| - 1 {
      assert init[i] == fs[i];
      GroupingKeepsEveryMessage(init, i);
      assert MessagesFor(fs, p) == MessagesFor(init, p) + (if PropertyName(fs[|fs| - 1].property) == p then [fs[|fs| - 1].errorMessage] else []);
    }
  }

  /** `HandleExceptionAsync`: the status code and envelope for an exception. */
  function HandleException(e: Exception): (r: ActionResult<()>)
    ensures !r.body.success && r.body.data.None? && r.routeId.None?
    ensures r.status == Status404NotFound <==> e.NotFound?
    ensures r.status == Status400BadRequest <==> e.Validation? || e.BusinessValidation? || e.Domain?
    ensures r.status == Status500InternalServerError <==> !e.Validation? && !IsDomainException(e)
    ensures e.Validation? ==>
      r.body.message == Some(ValidationErrorMessage) && r.body.errors == Some(GroupErrors(e.failures))
    ensures IsDomainException(e) ==> r.body.message == Some(Message(e)) && r.body.errors.None?
    ensures r.status == Status500InternalServerError ==> r == InternalError()
  {
    match e
    case Validation(fs) =>
      ActionResult(Status400BadRequest, ErrorResponse(ValidationErrorMessage, Some(GroupErrors(fs))), None)
    case NotFound(_, _) =>
      ActionResult(Status404NotFound, ErrorResponse(Message(e), None), None)
    case BusinessValidation(_) =>
      ActionResult(Status400BadRequest, ErrorResponse(Message(e), None), None)
    case Domain(_) =>
      ActionResult(Status400BadRequest, ErrorResponse(Message(e), None), None)
    case _ =>
      InternalError()
  }

  /** A `500` reveals nothing about the exception: any two exceptions the
      middleware does not recognise produce the same response. */
  lemma UnrecognisedExceptionsLookAlike(e1: Exception, e2: Exception)
    requires HandleException(e1).status == Status500InternalServerError
    requires HandleException(e2).status == Status500InternalServerError
    ensures HandleException(e1) == HandleException(e2)
  {
  }
}

=== FILE: pipeline.dfy ===
/** The write path as a whole: the request body first passes the field
    validator (the framework's automatic validation answers `400` before the
    action runs when it does not), then the service applies its rules to the
    store. Requests run one after another; the concurrent check-then-act race
    is not part of the model. */
module Pipeline {
  import opened Wrappers
  import opened Entities
  import opened Dtos
  import opened Validators
  import opened Exceptions
  import Repository
  import MenuService

  type Store = Repository.Store

  /** A write request together with the clock reads the service makes for it. */
  datatype Request =
    | CreateRequest(create: CreateMenuDto, clock1: Instant, clock2: Instant)
    | UpdateRequest(id: int, update: UpdateMenuDto, clock: Instant)
    | DeleteRequest(id: int)

  datatype Outcome =
    /** The body failed validation; the action never ran. */
    | Rejected(failures: seq<ValidationFailure>)
    /** The service threw. */
    | Raised(error: Exception)
    /** Create or update returned this DTO. */
    | Written(dto: MenuDto)
    /** Delete returned true. */
    | Deleted

  /** Whether the request's body, if it has one, passes the validator. */
  predicate BodyAccepted(q: Request)
  {
    match q
    case CreateRequest(d, _, _) => AcceptsFields(d.nome, d.ordem, d.icone, d.descricao, d.status)
    case UpdateRequest(_, d, _) => AcceptsFields(d.nome, d.ordem, d.icone, d.descricao, d.status)
    case DeleteRequest(_) => true
  }

  /** One request through validation and the service. Only `Written` and
      `Deleted` change the store. */
  function Handle(s: Store, q: Request): (r: (Store, Outcome))
    requires Repository.Valid(s)
    ensures Repository.Valid(r.0)
    ensures r.1.Rejected? <==> !BodyAccepted(q)
    ensures r.1.Rejected? || r.1.Raised? ==> r.0 == s
    ensures r.1.Raised? && r.1.error.NotFound? ==> !q.CreateRequest? && q.id !in s.menus
    ensures r.1.Raised? ==> r.1.error.NotFound? || r.1.error.BusinessValidation?
  {
    match q
    case CreateRequest(d, t1, t2) =>
      var fs := ValidateCreate(d);
      if fs != [] then (s, Rejected(fs))
      else
        var c := MenuService.Create(s, d, t1, t2);
        if c.Failure? then (s, Raised(c.error)) else (c.value.0, Written(c.value.1))
    case UpdateRequest(id, d, t) =>
      var fs := ValidateUpdate(d);
      if fs != [] then (s, Rejected(fs))
      else
        var u := MenuService.Update(s, id, d, t);
        if u.Failure? then (s, Raised(u.error)) else (u.value.0, Written(u.value.1))
    case DeleteRequest(id) =>
      var e := MenuService.Delete(s, id);
      if e.Failure? then (s, Raised(e.error)) else (e.value.0, Deleted)
  }

  /** Requests handled in order; the store after the last one and each outcome. */
  function Run(s: Store, qs: seq<Request>): (r: (Store, seq<Outcome>))
    requires Repository.Valid(s)
    ensures Repository.Valid(r.0)
    ensures |r.1| == |qs|
    decreases |qs|
  {
    if qs == [] then (s, [])
    else
      var t := Run(s, qs[..|qs| - 1]);
      var h := Handle(t.0, qs[|qs| - 1]);
      (h.0, t.1 + [h.1])
  }

  /** One more request is handled against the store the earlier ones left,
      and its outcome follows theirs. */
  lemma RunAppend(s: Store, qs: seq<Request>, q: Request)
    requires Repository.Valid(s)
    ensures var t := Run(s, qs);
      Run(s, qs + [q]) == (Handle(t.0, q).0, t.1 + [Handle(t.0, q).1])
  {
    assert (qs + [q])[..|qs|] == qs;
  }

  /** The outcomes of a prefix of the requests are a prefix of the outcomes. */
  lemma {:induction false} RunPrefix(s: Store, qs: seq<Request>, n: nat)
    requires Repository.Valid(s) && n <= |qs|
    ensures Run(s, qs[..n]).1 == Run(s, qs).1[..n]
    decreases |qs|
  {
    if n < |qs| {
      var init := qs[..|qs| - 1];
      assert init[..n] == qs[..n];
      RunPrefix(s, init, n);
      assert Run(s, qs).1[..n] == Run(s, init).1[..n];
    } else {
      assert qs[..n] == qs;
    }
  }

  /** Each request is handled against the store the requests before it left:
      the i-th outcome is what `Handle` gives for the i-th request there. */
  lemma {:induction false} RunOutcomeAt(s: Store, qs: seq<Request>, i: nat)
    requires Repository.Valid(s) && i < |qs|
    ensures Run(s, qs).1[i] == Handle(Run(s, qs[..i]).0, qs[i]).1
  {
    var t := Run(s, qs[..i]);
    assert qs[..i + 1] == qs[..i] + [qs[i]];
    RunAppend(s, qs[..i], qs[i]);
    RunPrefix(s, qs, i + 1);
    assert Run(s, qs).1[..i + 1][i] == Run(s, qs).1[i];
  }

  // ---------------------------------------------------------------------------
  // The invariant the pipeline keeps

  /** A stored menu whose fields, read back as a request body, pass the validator. */
  predicate RecordAccepted(m: Menu)
  {
    AcceptsFields(m.nome, m.ordem, m.icone, m.descricao, MenuService.StatusName(m.status))
  }

  /** The table is well formed, names are pairwise distinct, and every row
      satisfies the field rules. */
  ghost predicate Inv(s: Store)
  {
    && Repository.Valid(s)
    && MenuService.NamesDistinct(s)
    && forall k | k in s.menus :: RecordAccepted(s.menus[k])
  }

  lemma EmptySatisfiesInv()
    ensures Inv(Repository.Empty)
  {
  }

  /** A stored status name read back is the body's status when that status
      is one the validator accepts. */
  lemma AcceptedStatusKept(status: string, st: MenuStatus)
    requires AcceptsStatus(status)
    requires st == Ativo <==> status == StatusAtivo
    ensures MenuService.StatusName(st) == status
  {
  }

  lemma CreateKeepsInv(s: Store, d: CreateMenuDto, t1: Instant, t2: Instant)
    requires Inv(s)
    requires AcceptsFields(d.nome, d.ordem, d.icone, d.descricao, d.status)
    requires MenuService.Create(s, d, t1, t2).Success?
    ensures Inv(MenuService.Create(s, d, t1, t2).value.0)
  {
    var (s', dto) := MenuService.Create(s, d, t1, t2).value;
    MenuService.CreateKeepsNamesDistinct(s, d, t1, t2);
    AcceptedStatusKept(d.status, s'.menus[dto.id].status);
    assert RecordAccepted(s'.menus[dto.id]);
  }

  lemma UpdateKeepsInv(s: Store, id: int, d: UpdateMenuDto, t: Instant)
    requires Inv(s)
    requires AcceptsFields(d.nome, d.ordem, d.icone, d.descricao, d.status)
    requires MenuService.Update(s, id, d, t).Success?
    ensures Inv(MenuService.Update(s, id, d, t).value.0)
  {
    var s' := MenuService.Update(s, id, d, t).value.0;
    MenuService.UpdateKeepsNamesDistinct(s, id, d, t);
    AcceptedStatusKept(d.status, s'.menus[id].status);
    assert RecordAccepted(s'.menus[id]);
  }

  lemma DeleteKeepsInv(s: Store, id: int)
    requires Inv(s)
    requires MenuService.Delete(s, id).Success?
    ensures Inv(MenuService.Delete(s, id).value.0)
  {
    var s' := MenuService.Delete(s, id).value.0;
    assert forall k | k in s'.menus :: k in s.menus && s'.menus[k] == s.menus[k];
  }

  /** One request keeps the invariant. */
  lemma HandleKeepsInv(s: Store, q: Request)
    requires Inv(s)
    ensures Inv(Handle(s, q).0)
  {
    var s' := Handle(s, q).0;
    match q
    case CreateRequest(d, t1, t2) =>
      var c := MenuService.Create(s, d, t1, t2);
      if ValidateCreate(d) == [] && c.Success? {
        assert s' == c.value.0;
        CreateKeepsInv(s, d, t1, t2);
      } else {
        assert s' == s;
      }
    case UpdateRequest(id, d, t) =>
      var u := MenuService.Update(s, id, d, t);
      if ValidateUpdate(d) == [] && u.Success? {
        assert s' == u.value.0;
        UpdateKeepsInv(s, id, d, t);
      } else {
        assert s' == s;
      }
    case DeleteRequest(id) =>
      var e := MenuService.Delete(s, id);
      if e.Success? {
        assert s' == e.value.0;
        DeleteKeepsInv(s, id);
      } else {
        assert s' == s;
      }
  }

  /** Any sequence of requests, run one after another from a store satisfying
      the invariant, ends in one that satisfies it. */
  lemma {:induction false} RunKeepsInv(s: Store, qs: seq<Request>)
    requires Inv(s)
    ensures Inv(Run(s, qs).0)
    decreases |qs|
  {
    if qs != [] {
      var init := qs[..|qs| - 1];
      RunKeepsInv(s, init);
      HandleKeepsInv(Run(s, init).0, qs[|qs| - 1]);
    }
  }

  // ---------------------------------------------------------------------------
  // Timestamps under a clock that does not run backwards

  /** Every row was updated no earlier than it was created. */
  ghost predicate TimestampsOrdered(s: Store)
  {
    forall k | k in s.menus :: s.menus[k].criadoEm <= s.menus[k].atualizadoEm
  }

  /** The request's clock reads come no earlier than anything already stored:
      for a create the second read follows the first, for an update the read
      follows the row's creation. */
  ghost predicate ClockForward(s: Store, q: Request)
  {
    match q
    case CreateRequest(_, t1, t2) => t1 <= t2
    case UpdateRequest(id, _, t) => id in s.menus ==> s.menus[id].criadoEm <= t
    case DeleteRequest(_) => true
  }

  lemma HandleKeepsTimestampsOrdered(s: Store, q: Request)
    requires Repository.Valid(s) && TimestampsOrdered(s) && ClockForward(s, q)
    ensures TimestampsOrdered(Handle(s, q).0)
  {
    match q
    case CreateRequest(d, t1, t2) => CreateKeepsTimestampsOrdered(s, d, t1, t2);
    case UpdateRequest(id, d, t) => UpdateKeepsTimestampsOrdered(s, id, d, t);
    case DeleteRequest(id) => DeleteKeepsTimestampsOrdered(s, id);
  }

  lemma CreateKeepsTimestampsOrdered(s: Store, d: CreateMenuDto, t1: Instant, t2: Instant)
    requires Repository.Valid(s) && TimestampsOrdered(s) && t1 <= t2
    ensures TimestampsOrdered(Handle(s, CreateRequest(d, t1, t2)).0)
  {
    var s1 := Handle(s, CreateRequest(d, t1, t2)).0;
    assert forall k | k in s1.menus :: k in s.menus || (s1.menus[k].criadoEm == t1 && s1.menus[k].atualizadoEm == t2);
  }

  lemma UpdateKeepsTimestampsOrdered(s: Store, id: int, d: UpdateMenuDto, t: Instant)
    requires Repository.Valid(s) && TimestampsOrdered(s)
    requires id in s.menus ==> s.menus[id].criadoEm <= t
    ensures TimestampsOrdered(Handle(s, UpdateRequest(id, d, t)).0)
  {
    var s1 := Handle(s, UpdateRequest(id, d, t)).0;
    assert forall k | k in s1.menus :: k in s.menus && (s1.menus[k] == s.menus[k] || (k == id && s1.menus[k].criadoEm <= t && s1.menus[k].atualizadoEm == t));
  }

  lemma DeleteKeepsTimestampsOrdered(s: Store, id: int)
    requires Repository.Valid(s) && TimestampsOrdered(s)
    ensures TimestampsOrdered(Handle(s, DeleteRequest(id)).0)
  {
    var s1 := Handle(s, DeleteRequest(id)).0;
    assert forall k | k in s1.menus :: k in s.menus && s1.menus[k] == s.menus[k];
  }
}

=== FILE: repository.dfy ===
/** `MenuRepository`: the `Menus` table as a map from id to record plus the
    identity counter that numbers new rows (starting at 1, never reused).
    Queries read the table's rows in id order and sort them by `Ordem`; the
    order among menus with equal `Ordem` is not part of any contract.
    Name comparison (`==` and `Contains`) is ordinal and case-sensitive. */
module Repository {
  import opened Wrappers
  import opened Text
  import opened Entities

  datatype Store = Store(menus: map<int, Menu>, nextId: int)

  /** Every row sits under its own id, and every id is below the counter. */
  ghost predicate Valid(s: Store)
  {
    && s.nextId >= 1
    && forall k | k in s.menus :: 1 <= k < s.nextId && s.menus[k].id == k
  }

  /** `m` is the row stored under its id. */
  ghost predicate Stored(s: Store, m: Menu)
  {
    m.id in s.menus && s.menus[m.id] == m
  }

  /** An empty table. */
  const Empty: Store := Store(map[], 1)

  lemma EmptyIsValid()
    ensures Valid(Empty) && Empty.menus == map[]
  {
  }

  predicate SortedByOrdem(xs: seq<Menu>)
  {
    forall i, j | 0 <= i < j < |xs| :: xs[i].ordem <= xs[j].ordem
  }

  /** No two entries share an id, so no menu is listed twice. */
  predicate DistinctIds(xs: seq<Menu>)
  {
    forall i, j | 0 <= i < j < |xs| :: xs[i].id != xs[j].id
  }

  // ---------------------------------------------------------------------------
  // Reading the table

  /** The rows with ids in `[from, nextId)`, in increasing id order. */
  function RowsFrom(s: Store, from: int): (r: seq<Menu>)
    requires Valid(s)
    ensures forall j | 0 <= j < |r| :: r[j].id in s.menus && s.menus[r[j].id] == r[j] && r[j].id >= from
    ensures forall k | k in s.menus && k >= from :: s.menus[k] in r
    ensures forall i, j | 0 <= i < j < |r| :: r[i].id < r[j].id
    decreases s.nextId - from
  {
    if from >= s.nextId then []
    else (if from in s.menus then [s.menus[from]] else []) + RowsFrom(s, from + 1)
  }

  /** Every row of the table, once each, in id order. */
  function Rows(s: Store): (r: seq<Menu>)
    requires Valid(s)
    ensures forall m :: m in r <==> Stored(s, m)
    ensures DistinctIds(r)
  {
    RowsFrom(s, 1)
  }

  // ---------------------------------------------------------------------------
  // OrderBy(m => m.Ordem)

  function InsertByOrdem(m: Menu, xs: seq<Menu>): seq<Menu>
  {
    if xs == [] then [m]
    else if m.ordem <= xs[0].ordem then [m] + xs
    else [xs[0]] + InsertByOrdem(m, xs[1..])
  }

  /** Every entry of an insertion is `m` or an entry of the list. */
  lemma {:induction false} InsertByOrdemElements(m: Menu, xs: seq<Menu>)
    ensures multiset(InsertByOrdem(m, xs)) == multiset(xs) + multiset{m}
    ensures forall y | y in InsertByOrdem(m, xs) :: y in xs || y == m
  {
    if xs != [] && m.ordem > xs[0].ordem {
      InsertByOrdemElements(m, xs[1..]);
      assert xs == [xs[0]] + xs[1..];
    }
  }

  /** Inserting into a sorted list keeps it sorted. */
  lemma {:induction false} InsertByOrdemSorted(m: Menu, xs: seq<Menu>)
    requires SortedByOrdem(xs)
    ensures SortedByOrdem(InsertByOrdem(m, xs))
  {
    var r := InsertByOrdem(m, xs);
    if xs == [] {
    } else if m.ordem <= xs[0].ordem {
      forall i, j | 0 <= i < j < |r|
        ensures r[i].ordem <= r[j].ordem
      {
        if i > 0 {
          assert r[i] == xs[i - 1] && r[j] == xs[j - 1];
        } else if j > 1 {
          assert r[j] == xs[j - 1];
          assert xs[0].ordem <= xs[j - 1].ordem;
        }
      }
    } else {
      var tail := xs[1..];
      var rest := InsertByOrdem(m, tail);
      InsertByOrdemSorted(m, tail);
      InsertByOrdemElements(m, tail);
      assert r == [xs[0]] + rest;
      forall i, j | 0 <= i < j < |r|
        ensures r[i].ordem <= r[j].ordem
      {
        if i > 0 {
          assert r[i] == rest[i - 1] && r[j] == rest[j - 1];
        } else {
          assert r[j] == rest[j - 1];
          assert r[j] in rest;
          if r[j] != m {
            var k :| 0 <= k < |tail| && tail[k] == r[j];
            assert xs[k + 1] == r[j];
          }
        }
      }
    }
  }

  /** Inserting an entry with a new id keeps ids distinct. */
  lemma {:induction false} InsertByOrdemDistinct(m: Menu, xs: seq<Menu>)
    requires DistinctIds(xs)
    requires forall y | y in xs :: y.id != m.id
    ensures DistinctIds(InsertByOrdem(m, xs))
  {
    var r := InsertByOrdem(m, xs);
    if xs != [] && m.ordem > xs[0].ordem {
      var tail := xs[1..];
      var rest := InsertByOrdem(m, tail);
      InsertByOrdemDistinct(m, tail);
      InsertByOrdemElements(m, tail);
      assert r == [xs[0]] + rest;
      forall i, j | 0 <= i < j < |r|
        ensures r[i].id != r[j].id
      {
        if i > 0 {
          assert r[i] == rest[i - 1] && r[j] == rest[j - 1];
        } else {
          assert r[j] == rest[j - 1];
          assert r[j] in rest;
          if r[j] != m {
            var k :| 0 <= k < |tail| && tail[k] == r[j];
            assert xs[k + 1] == r[j];
          }
        }
      }
    }
  }

  /** Sorts by `Ordem`, ascending. */
  function SortByOrdem(xs: seq<Menu>): (r: seq<Menu>)
    ensures SortedByOrdem(r)
    ensures multiset(r) == multiset(xs)
    ensures DistinctIds(xs) ==> DistinctIds(r)
  {
    if xs == [] then []
    else
      var rest := SortByOrdem(xs[1..]);
      InsertByOrdemSorted(xs[0], rest);
      InsertByOrdemElements(xs[0], rest);
      SortStep(xs, rest);
      if DistinctIds(xs) then
        InsertByOrdemDistinct(xs[0], rest);
        InsertByOrdem(xs[0], rest)
      else
        InsertByOrdem(xs[0], rest)
  }

  lemma SortStep(xs: seq<Menu>, rest: seq<Menu>)
    requires xs != []
    requires multiset(rest) == multiset(xs[1..])
    requires DistinctIds(xs) ==> DistinctIds(rest)
    ensures multiset(rest) + multiset{xs[0]} == multiset(xs)
    ensures DistinctIds(xs) ==> DistinctIds(rest) && forall y | y in rest :: y.id != xs[0].id
  {
    assert xs == [xs[0]] + xs[1..];
    if DistinctIds(xs) {
      forall y | y in rest
        ensures y.id != xs[0].id
      {
        assert y in multiset(xs[1..]);
        var j :| 0 <= j < |xs[1..]| && xs[1..][j] == y;
        assert xs[j + 1] == y;
      }
    }
  }

  // ---------------------------------------------------------------------------
  // Where(m => m.Nome.Contains(nome))

  function WhereNomeContains(xs: seq<Menu>, term: string): (r: seq<Menu>)
    ensures forall m :: m in r <==> m in xs && Contains(m.nome, term)
    ensures multiset(r) <= multiset(xs)
  {
    if xs == [] then []
    else
      var rest := WhereNomeContains(xs[1..], term);
      assert xs == [xs[0]] + xs[1..];
      if Contains(xs[0].nome, term) then [xs[0]] + rest else rest
  }

  /** Filtering a list without repeated ids gives one without repeated ids. */
  lemma {:induction false} WhereNomeContainsDistinct(xs: seq<Menu>, term: string)
    requires DistinctIds(xs)
    ensures DistinctIds(WhereNomeContains(xs, term))
  {
    if xs != [] {
      var tail := xs[1..];
      var rest := WhereNomeContains(tail, term);
      DistinctTail(xs);
      WhereNomeContainsDistinct(tail, term);
      if Contains(xs[0].nome, term) {
        assert forall y | y in rest :: y in tail;
        ConsDistinct(xs[0], rest, tail);
      }
    }
  }

  /** The tail of a list without repeated ids has none, and repeats no id of the head. */
  lemma DistinctTail(xs: seq<Menu>)
    requires xs != [] && DistinctIds(xs)
    ensures DistinctIds(xs[1..])
    ensures forall y | y in xs[1..] :: y.id != xs[0].id
  {
    assert forall i | 0 <= i < |xs[1..]| :: xs[1..][i] == xs[i + 1];
  }

  /** Prepending an entry whose id no entry of `rest` has keeps ids distinct. */
  lemma ConsDistinct(x: Menu, rest: seq<Menu>, tail: seq<Menu>)
    requires DistinctIds(rest)
    requires forall y | y in rest :: y in tail
    requires forall y | y in tail :: y.id != x.id
    ensures DistinctIds([x] + rest)
  {
    var r := [x] + rest;
    forall i, j | 0 <= i < j < |r|
      ensures r[i].id != r[j].id
    {
      assert r[j] == rest[j - 1];
      if i > 0 {
        assert r[i] == rest[i - 1];
      } else {
        assert rest[j - 1] in rest;
      }
    }
  }

  // ---------------------------------------------------------------------------
  // The seven repository operations

  /** `GetAllAsync`: every stored menu exactly once, sorted by `Ordem`. */
  function GetAll(s: Store): (r: seq<Menu>)
    requires Valid(s)
    ensures SortedByOrdem(r)
    ensures forall m :: m in r <==> Stored(s, m)
    ensures DistinctIds(r)
    ensures multiset(r) == multiset(Rows(s))
  {
    var r := SortByOrdem(Rows(s));
    assert forall m :: m in r <==> m in multiset(Rows(s));
    r
  }

  /** `SearchByNameAsync`: a blank term (null, empty or whitespace) filters
      nothing; any other term keeps the menus whose name contains it. */
  function SearchByName(s: Store, term: string): (r: seq<Menu>)
    requires Valid(s)
    ensures SortedByOrdem(r)
    ensures forall m :: m in r <==> Stored(s, m) && (IsBlank(term) || Contains(m.nome, term))
    ensures DistinctIds(r)
  {
    var rows := Rows(s);
    WhereNomeContainsDistinct(rows, term);
    var selected := if IsBlank(term) then rows else WhereNomeContains(rows, term);
    var r := SortByOrdem(selected);
    assert forall m :: m in r <==> m in multiset(selected);
    r
  }

  /** `GetByIdAsync`: the menu whose `Id` is `id`, or null. */
  function GetById(s: Store, id: int): (r: Option<Menu>)
    requires Valid(s)
    ensures r.Some? <==> id in s.menus
    ensures r.Some? ==> r.value.id == id && Stored(s, r.value)
    ensures r.None? ==> forall m | Stored(s, m) :: m.id != id
  {
    if id in s.menus then Some(s.menus[id]) else None
  }

  /** Some menu in `xs` is named `nome` and, when an id is excluded, has another id. */
  function AnyNamed(xs: seq<Menu>, nome: string, excludeId: Option<int>): (b: bool)
    ensures b <==> exists j | 0 <= j < |xs| :: xs[j].nome == nome && (excludeId.None? || xs[j].id != excludeId.value)
  {
    if xs == [] then false
    else if xs[0].nome == nome && (excludeId.None? || xs[0].id != excludeId.value) then true
    else
      var b := AnyNamed(xs[1..], nome, excludeId);
      assert forall j | 1 <= j < |xs| :: xs[j] == xs[1..][j - 1];
      b
  }

  /** `ExistsByNameAsync`: some menu is named exactly `nome`, ignoring the menu
      whose id is `excludeId` when one is given. */
  function ExistsByName(s: Store, nome: string, excludeId: Option<int>): (b: bool)
    requires Valid(s)
    ensures b <==> exists m | Stored(s, m) :: m.nome == nome && (excludeId.None? || m.id != excludeId.value)
  {
    var rows := Rows(s);
    var b := AnyNamed(rows, nome, excludeId);
    AnyNamedRows(s, rows, nome, excludeId);
    b
  }

  lemma AnyNamedRows(s: Store, rows: seq<Menu>, nome: string, excludeId: Option<int>)
    requires forall m :: m in rows <==> Stored(s, m)
    ensures (exists j | 0 <= j < |rows| :: rows[j].nome == nome && (excludeId.None? || rows[j].id != excludeId.value))
        <==> exists m | Stored(s, m) :: m.nome == nome && (excludeId.None? || m.id != excludeId.value)
  {
    if exists m | Stored(s, m) :: m.nome == nome && (excludeId.None? || m.id != excludeId.value) {
      var m :| Stored(s, m) && m.nome == nome && (excludeId.None? || m.id != excludeId.value);
      assert m in rows;
    }
  }

  /** `CreateAsync`: the identity column numbers the row; every other field is
      stored as given. */
  function Create(s: Store, m: Menu): (r: (Store, Menu))
    requires Valid(s)
    ensures Valid(r.0)
    ensures r.1 == m.(id := r.1.id)
    ensures r.1.id !in s.menus
    ensures r.0.menus == s.menus[r.1.id := r.1]
  {
    var created := m.(id := s.nextId);
    (Store(s.menus[s.nextId := created], s.nextId + 1), created)
  }

  /** `UpdateAsync`: the stored row with the menu's id is replaced by it. */
  function Update(s: Store, m: Menu): (r: (Store, Menu))
    requires Valid(s)
    requires m.id in s.menus
    ensures Valid(r.0)
    ensures r.1 == m
    ensures r.0.menus == s.menus[m.id := m] && r.0.nextId == s.nextId
  {
    (s.(menus := s.menus[m.id := m]), m)
  }

  /** `DeleteAsync`: false and no change for an absent id; otherwise that row
      alone is removed. */
  function Delete(s: Store, id: int): (r: (Store, bool))
    requires Valid(s)
    ensures Valid(r.0)
    ensures r.1 <==> id in s.menus
    ensures !r.1 ==> r.0 == s
    ensures r.0.menus == s.menus - {id} && r.0.nextId == s.nextId
  {
    if GetById(s, id).None? then (s, false)
    else (s.(menus := s.menus - {id}), true)
  }

  // ---------------------------------------------------------------------------
  // How the operations relate

  /** A blank search lists the same menus in the same order as `GetAllAsync`. */
  lemma BlankSearchIsGetAll(s: Store, term: string)
    requires Valid(s)
    requires IsBlank(term)
    ensures SearchByName(s, term) == GetAll(s)
  {
  }

  /** A created menu is found by its id and by its name; a deleted one by neither;
      other rows are unaffected by either. */
  lemma CreateThenDelete(s: Store, m: Menu, k: int)
    requires Valid(s)
    ensures var (s1, c) := Create(s, m);
      && GetById(s1, c.id) == Some(c)
      && ExistsByName(s1, m.nome, None)
      && (k != c.id ==> GetById(s1, k) == GetById(s, k))
    ensures var (s1, c) := Create(s, m);
      var (s2, removed) := Delete(s1, c.id);
      && removed
      && GetById(s2, c.id).None?
      && s2.menus == s.menus
  {
    var (s1, c) := Create(s, m);
    assert Stored(s1, c);
  }
}

=== FILE: responses.dfy ===
/** The uniform response envelope `ApiResponse<T>` and the action results the
    controllers return. The envelope's `Timestamp` (a clock read) is not part
    of the model. */
module Responses {
  import opened Wrappers

  /** `Dictionary<string, string[]>`: property name to its messages. */
  type ErrorMap = map<string, seq<string>>

  /** `data` is `None` where the C# object holds `default(T)`. */
  datatype ApiResponse<T> = ApiResponse(
    success: bool,
    message: Option<string>,
    data: Option<T>,
    errors: Option<ErrorMap>)

  const DefaultSuccessMessage: string := "Operação realizada com sucesso"
  const InternalErrorMessage: string := "Erro interno do servidor"

  /** `ApiResponse<T>.SuccessResponse(data, message)`. */
  function SuccessResponse<T>(data: T, message: Option<string>): (r: ApiResponse<T>)
    ensures r.success && r.data == Some(data) && r.errors.None?
    ensures message.Some? ==> r.message == message
    ensures message.None? ==> r.message == Some(DefaultSuccessMessage)
  {
    ApiResponse(true, Some(message.GetOr(DefaultSuccessMessage)), Some(data), None)
  }

  /** `ApiResponse<T>.ErrorResponse(message, errors)`; `errors` defaults to null. */
  function ErrorResponse<T>(message: string, errors: Option<ErrorMap>): (r: ApiResponse<T>)
    ensures !r.success && r.message == Some(message) && r.errors == errors && r.data.None?
  {
    ApiResponse(false, Some(message), None, errors)
  }

  /** An envelope was built by one of the two constructors. */
  predicate WellFormed<T>(r: ApiResponse<T>)
  {
    (r.success && r.data.Some? && r.errors.None? && r.message.Some?)
    || (!r.success && r.data.None? && r.message.Some?)
  }

  /** The two constructors never produce the same envelope, both produce
      well-formed ones, and a well-formed envelope is rebuilt exactly by the
      constructor its `success` flag names. */
  lemma EnvelopeKinds<T>(data: T, m: Option<string>, em: string, errors: Option<ErrorMap>, r: ApiResponse<T>)
    ensures SuccessResponse(data, m) != ErrorResponse(em, errors)
    ensures WellFormed(SuccessResponse(data, m)) && WellFormed(ErrorResponse<T>(em, errors))
    ensures WellFormed(r) && r.success ==> r == SuccessResponse(r.data.value, r.message)
    ensures WellFormed(r) && !r.success ==> r == ErrorResponse(r.message.value, r.errors)
  {
  }

  /** What an action returns: the status code, the envelope, and for `201 Created`
      the id placed in the route of the `Location` header. */
  datatype ActionResult<T> = ActionResult(status: int, body: ApiResponse<T>, routeId: Option<int>)

  const Status200OK: int := 200
  const Status201Created: int := 201
  const Status400BadRequest: int := 400
  const Status401Unauthorized: int := 401
  const Status404NotFound: int := 404
  const Status500InternalServerError: int := 500

  function Ok<T>(body: ApiResponse<T>): ActionResult<T>
  {
    ActionResult(Status200OK, body, None)
  }

  /** The `500` every catch-all handler returns: a fixed message and nothing else. */
  function InternalError<T>(): (r: ActionResult<T>)
    ensures r.status == Status500InternalServerError
    ensures !r.body.success && r.body.message == Some(InternalErrorMessage)
    ensures r.body.data.None? && r.body.errors.None? && r.routeId.None?
  {
    ActionResult(Status500InternalServerError, ErrorResponse(InternalErrorMessage, None), None)
  }
}

=== FILE: text.dfy ===
/** String primitives of the two runtimes the system runs on: the .NET server
    (`char.IsWhiteSpace`, `string.IsNullOrWhiteSpace`, `string.Length` in UTF-16
    code units, ordinal `Contains`, `int.ToString()`) and the browser client
    (`String.prototype.trim`, `parseInt` without a radix). Strings are
    sequences of Unicode scalar values; comparison is ordinal throughout. */
module Text {
  import opened Wrappers

  // ---------------------------------------------------------------------------
  // Whitespace

  /** `char.IsWhiteSpace` in .NET: the Unicode space separators (Zs), the line
      and paragraph separators, U+0009..U+000D, U+0085 and U+00A0. */
  predicate IsDotNetWhiteSpace(c: char)
  {
    || ('\t' <= c <= '\r')
    || c == ' '
    || c == '\U{0085}'
    || c == '\U{00A0}'
    || c == '\U{1680}'
    || ('\U{2000}' <= c <= '\U{200A}')
    || c == '\U{2028}'
    || c == '\U{2029}'
    || c == '\U{202F}'
    || c == '\U{205F}'
    || c == '\U{3000}'
  }

  /** The code points ECMAScript's `trim` removes: WhiteSpace (TAB, VT, FF,
      ZWNBSP U+FEFF and the Zs category) and LineTerminator (LF, CR, U+2028,
      U+2029). Unlike .NET it includes U+FEFF and excludes U+0085. */
  predicate IsJsWhiteSpace(c: char)
  {
    || ('\t' <= c <= '\r')
    || c == ' '
    || c == '\U{00A0}'
    || c == '\U{1680}'
    || ('\U{2000}' <= c <= '\U{200A}')
    || c == '\U{2028}'
    || c == '\U{2029}'
    || c == '\U{202F}'
    || c == '\U{205F}'
    || c == '\U{3000}'
    || c == '\U{FEFF}'
  }

  /** `string.IsNullOrWhiteSpace` on a non-null string: empty or all whitespace. */
  predicate IsBlank(s: string)
  {
    forall k | 0 <= k < |s| :: IsDotNetWhiteSpace(s[k])
  }

  /** The two runtimes disagree on exactly two code points: .NET counts U+0085
      (NEXT LINE) as whitespace and JavaScript does not, and JavaScript counts
      U+FEFF (ZERO WIDTH NO-BREAK SPACE) as whitespace and .NET does not. */
  lemma WhiteSpaceSetsDiffer(c: char)
    ensures IsDotNetWhiteSpace(c) != IsJsWhiteSpace(c) <==> c == '\U{0085}' || c == '\U{FEFF}'
    ensures c == '\U{0085}' ==> IsDotNetWhiteSpace(c) && !IsJsWhiteSpace(c)
    ensures c == '\U{FEFF}' ==> IsJsWhiteSpace(c) && !IsDotNetWhiteSpace(c)
  {
  }

  /** `string.IsNullOrWhiteSpace` on a nullable string. */
  predicate IsNullOrWhiteSpace(s: Option<string>)
  {
    s.None? || IsBlank(s.value)
  }

  /** `string.IsNullOrEmpty` on a nullable string. */
  predicate IsNullOrEmpty(s: Option<string>)
  {
    s.None? || s.value == ""
  }

  // ---------------------------------------------------------------------------
  // JavaScript trim

  /** Number of JavaScript whitespace characters at the start of `s`. */
  function LeadingJsWhiteSpace(s: string): (n: nat)
    ensures n <= |s|
    ensures forall k | 0 <= k < n :: IsJsWhiteSpace(s[k])
    ensures n < |s| ==> !IsJsWhiteSpace(s[n])
  {
    if |s| > 0 && IsJsWhiteSpace(s[0]) then 1 + LeadingJsWhiteSpace(s[1..]) else 0
  }

  /** Number of JavaScript whitespace characters at the end of `s`. */
  function TrailingJsWhiteSpace(s: string): (n: nat)
    ensures n <= |s|
    ensures forall k | |s| - n <= k < |s| :: IsJsWhiteSpace(s[k])
    ensures n < |s| ==> !IsJsWhiteSpace(s[|s| - 1 - n])
  {
    if |s| > 0 && IsJsWhiteSpace(s[|s| - 1]) then 1 + TrailingJsWhiteSpace(s[..|s| - 1]) else 0
  }

  /** `s.trim()`: the slice of `s` between its leading and trailing whitespace. */
  function JsTrim(s: string): (r: string)
    ensures |r| <= |s|
    ensures r == "" <==> forall k | 0 <= k < |s| :: IsJsWhiteSpace(s[k])
    ensures r != "" ==> !IsJsWhiteSpace(r[0]) && !IsJsWhiteSpace(r[|r| - 1])
    ensures exists i :: SliceAt(r, s, i) && TrimmedAround(r, s, i)
  {
    var lead := LeadingJsWhiteSpace(s);
    var rest := s[lead..];
    var trail := TrailingJsWhiteSpace(rest);
    var r := rest[..|rest| - trail];
    assert SliceAt(r, s, lead);
    assert forall k | lead + |r| <= k < |s| :: s[k] == rest[k - lead];
    assert TrimmedAround(r, s, lead);
    r
  }

  /** Everything of `s` before position `i` and after the slice `t` there is
      JavaScript whitespace. */
  predicate TrimmedAround(t: string, s: string, i: int)
  {
    && (forall k | 0 <= k < i && k < |s| :: IsJsWhiteSpace(s[k]))
    && (forall k | 0 <= i + |t| <= k < |s| :: IsJsWhiteSpace(s[k]))
  }

  /** `trim` removes exactly the padding: whitespace around a text that neither
      starts nor ends with whitespace is stripped and the text is kept whole. */
  lemma {:induction false} JsTrimOfPadded(w1: string, t: string, w2: string)
    requires forall k | 0 <= k < |w1| :: IsJsWhiteSpace(w1[k])
    requires forall k | 0 <= k < |w2| :: IsJsWhiteSpace(w2[k])
    requires t != "" ==> !IsJsWhiteSpace(t[0]) && !IsJsWhiteSpace(t[|t| - 1])
    ensures JsTrim(w1 + t + w2) == t
  {
    var s := w1 + t + w2;
    var a, b := |w1|, |w1| + |t|;
    PaddedLayout(w1, t, w2);
    var r := JsTrim(s);
    if t != "" {
      var i :| SliceAt(r, s, i) && TrimmedAround(r, s, i);
      TrimPinned(s, r, i, a, b);
    }
  }

  /** Where the parts of `w1 + t + w2` sit. */
  lemma PaddedLayout(w1: string, t: string, w2: string)
    requires forall k | 0 <= k < |w1| :: IsJsWhiteSpace(w1[k])
    requires forall k | 0 <= k < |w2| :: IsJsWhiteSpace(w2[k])
    ensures var s, a, b := w1 + t + w2, |w1|, |w1| + |t|;
      && (forall k | 0 <= k < a :: IsJsWhiteSpace(s[k]))
      && (forall k | b <= k < |s| :: IsJsWhiteSpace(s[k]))
      && s[a..b] == t
  {
    var s := w1 + t + w2;
    forall k | 0 <= k < |w1| ensures IsJsWhiteSpace(s[k]) { assert s[k] == w1[k]; }
    forall k | |w1| + |t| <= k < |s| ensures IsJsWhiteSpace(s[k]) { assert s[k] == w2[k - |w1| - |t|]; }
  }

  /** A slice with whitespace only around it and non-whitespace at both ends
      is the one between the outermost non-whitespace characters. */
  lemma TrimPinned(s: string, r: string, i: int, a: int, b: int)
    requires 0 <= a < b <= |s|
    requires forall k | 0 <= k < a :: IsJsWhiteSpace(s[k])
    requires forall k | b <= k < |s| :: IsJsWhiteSpace(s[k])
    requires !IsJsWhiteSpace(s[a]) && !IsJsWhiteSpace(s[b - 1])
    requires SliceAt(r, s, i) && TrimmedAround(r, s, i)
    requires r != "" && !IsJsWhiteSpace(r[0]) && !IsJsWhiteSpace(r[|r| - 1])
    ensures r == s[a..b]
  {
    assert s[i] == r[0] && s[i + |r| - 1] == r[|r| - 1];
    assert i == a;
    assert i + |r| == b;
  }

  /** Off U+0085 and U+FEFF, the server's blank test and the client's
      `trim() === ''` test agree. */
  lemma BlankAgreesWithTrim(s: string)
    requires forall k | 0 <= k < |s| :: s[k] != '\U{0085}' && s[k] != '\U{FEFF}'
    ensures IsBlank(s) <==> JsTrim(s) == ""
  {
    forall k | 0 <= k < |s| ensures IsDotNetWhiteSpace(s[k]) == IsJsWhiteSpace(s[k]) {
      WhiteSpaceSetsDiffer(s[k]);
    }
  }

  // ---------------------------------------------------------------------------
  // Ordinal substring search and UTF-16 length

  /** `t` is the slice of `s` that starts at position `i`. */
  predicate SliceAt(t: string, s: string, i: int)
  {
    0 <= i <= |s| - |t| && s[i..i + |t|] == t
  }

  /** `t` occurs in `s` at some position (the meaning of ordinal `Contains`). */
  ghost predicate OccursIn(t: string, s: string)
  {
    exists i :: SliceAt(t, s, i)
  }

  /** `s.Contains(t)` with ordinal, case-sensitive comparison. */
  function Contains(s: string, t: string): (b: bool)
    ensures b <==> OccursIn(t, s)
    decreases |s|
  {
    if |t| > |s| then false
    else if s[..|t|] == t then
      assert SliceAt(t, s, 0);
      true
    else
      var b := Contains(s[1..], t);
      ContainsStep(s, t);
      b
  }

  /** An occurrence of `t` in `s` that is not at position 0 is an occurrence in `s[1..]`. */
  lemma ContainsStep(s: string, t: string)
    requires |t| <= |s|
    requires s[..|t|] != t
    ensures OccursIn(t, s) <==> OccursIn(t, s[1..])
  {
    if OccursIn(t, s) {
      var i :| SliceAt(t, s, i);
      assert i != 0 by { assert s[0..0 + |t|] == s[..|t|]; }
      assert SliceAt(t, s[1..], i - 1);
    }
    if OccursIn(t, s[1..]) {
      var i :| SliceAt(t, s[1..], i);
      assert s[1..][i..i + |t|] == s[i + 1..i + 1 + |t|];
      assert SliceAt(t, s, i + 1);
    }
  }

  /** UTF-16 code units of one Unicode scalar value. */
  function Utf16Units(c: char): nat
  {
    if c as int >= 0x1_0000 then 2 else 1
  }

  /** `string.Length` in .NET: the number of UTF-16 code units. */
  function Utf16Length(s: string): (n: nat)
    ensures |s| <= n <= 2 * |s|
    ensures n == |s| <==> forall k | 0 <= k < |s| :: s[k] as int < 0x1_0000
    ensures |s| == 1 ==> n == (if s[0] as int < 0x1_0000 then 1 else 2)
  {
    if |s| == 0 then 0 else Utf16Units(s[0]) + Utf16Length(s[1..])
  }

  /** The UTF-16 length of a concatenation is the sum of the lengths. */
  lemma {:induction false} Utf16LengthAppend(a: string, b: string)
    ensures Utf16Length(a + b) == Utf16Length(a) + Utf16Length(b)
  {
    if a == [] {
      assert a + b == b;
    } else {
      assert (a + b)[0] == a[0];
      assert (a + b)[1..] == a[1..] + b;
      Utf16LengthAppend(a[1..], b);
    }
  }

  // ---------------------------------------------------------------------------
  // Integer formatting and JavaScript parseInt

  predicate IsDecimalDigit(c: char)
  {
    '0' <= c <= '9'
  }

  /** Value of a character as a digit in radix up to 36; 36 when it is not one. */
  function DigitValue(c: char): nat
  {
    if '0' <= c <= '9' then c as int - '0' as int
    else if 'a' <= c <= 'z' then c as int - 'a' as int + 10
    else if 'A' <= c <= 'Z' then c as int - 'A' as int + 10
    else 36
  }

  function DecimalDigit(d: nat): (c: char)
    requires d < 10
    ensures IsDecimalDigit(c) && DigitValue(c) == d
  {
    ('0' as int + d) as char
  }

  /** Decimal digits of `n` without leading zeros. */
  function NatToDecimal(n: nat): (r: string)
    ensures |r| >= 1
    ensures forall k | 0 <= k < |r| :: IsDecimalDigit(r[k])
    ensures |r| > 1 ==> r[0] != '0'
  {
    if n < 10 then [DecimalDigit(n)] else NatToDecimal(n / 10) + [DecimalDigit(n % 10)]
  }

  /** `int.ToString()`: optional minus sign, then decimal digits. */
  function IntToString(n: int): (r: string)
    ensures r != "" && (r[0] == '-' <==> n < 0)
    ensures forall k | (if n < 0 then 1 else 0) <= k < |r| :: IsDecimalDigit(r[k])
    ensures |r| > (if n < 0 then 2 else 1) ==> r[if n < 0 then 1 else 0] != '0'
  {
    if n < 0 then "-" + NatToDecimal(-n) else NatToDecimal(n)
  }

  /** Length of the longest prefix of `s` made of digits of radix `radix`. */
  function DigitPrefixLength(s: string, radix: nat): (n: nat)
    ensures n <= |s|
    ensures forall k | 0 <= k < n :: DigitValue(s[k]) < radix
    ensures n < |s| ==> DigitValue(s[n]) >= radix
  {
    if |s| > 0 && DigitValue(s[0]) < radix then 1 + DigitPrefixLength(s[1..], radix) else 0
  }

  /** Mathematical value of a digit string in radix `radix`, most significant first. */
  function DigitsValue(z: string, radix: nat): nat
  {
    if |z| == 0 then 0
    else DigitsValue(z[..|z| - 1], radix) * radix + DigitValue(z[|z| - 1])
  }

  /** The digits after the sign: a `0x`/`0X` prefix switches to radix 16, and
      the longest run of digits that follows is converted; `None` when there
      is no digit. */
  function ParseUnsigned(u: string): Option<nat>
  {
    var hex := |u| >= 2 && u[0] == '0' && (u[1] == 'x' || u[1] == 'X');
    var radix := if hex then 16 else 10;
    var v := if hex then u[2..] else u;
    var z := v[..DigitPrefixLength(v, radix)];
    if |z| == 0 then None else Some(DigitsValue(z, radix))
  }

  /** `parseInt(s)` without a radix; `None` is `NaN`. Leading whitespace is
      skipped and one sign is read before the digits: without a sign the
      digits are read as they are, a plus is skipped, and a minus negates. */
  function JsParseInt(s: string): (r: Option<int>)
    ensures s != [] && !IsJsWhiteSpace(s[0]) && s[0] != '-' && s[0] != '+' ==> r == ParseUnsigned(s)
    ensures s != [] && s[0] == '+' ==> r == ParseUnsigned(s[1..])
    ensures s != [] && s[0] == '-' ==>
      var n := ParseUnsigned(s[1..]);
      r == if n.None? then None else Some(0 - n.value)
  {
    var t := s[LeadingJsWhiteSpace(s)..];
    assert !IsJsWhiteSpace('+') && !IsJsWhiteSpace('-');
    assert s != [] && !IsJsWhiteSpace(s[0]) ==> t == s by {
      if s != [] && !IsJsWhiteSpace(s[0]) { NoLeadingWhiteSpace(s); }
    }
    ParseSignedCases(t);
    ParseSigned(t)
  }

  /** The three ways `ParseSigned` reads its first character. */
  lemma ParseSignedCases(t: string)
    ensures t != [] && t[0] != '-' && t[0] != '+' ==> ParseSigned(t) == ParseUnsigned(t)
    ensures t != [] && t[0] == '+' ==> ParseSigned(t) == ParseUnsigned(t[1..])
    ensures t != [] && t[0] == '-' ==>
      var n := ParseUnsigned(t[1..]);
      ParseSigned(t) == if n.None? then None else Some(0 - n.value)
  {
  }

  /** The read after the leading whitespace: one optional sign, then digits. */
  function ParseSigned(t: string): Option<int>
  {
    var sign := if |t| > 0 && t[0] == '-' then -1 else 1;
    var u := if |t| > 0 && (t[0] == '-' || t[0] == '+') then t[1..] else t;
    match ParseUnsigned(u)
    case None => None
    case Some(n) => Some(sign * n)
  }

  lemma {:induction false} DecimalValue(n: nat)
    ensures DigitsValue(NatToDecimal(n), 10) == n
  {
    if n >= 10 {
      var r := NatToDecimal(n);
      assert r[..|r| - 1] == NatToDecimal(n / 10);
      DecimalValue(n / 10);
    }
  }

  lemma DecimalPrefixIsWhole(d: string)
    requires forall k | 0 <= k < |d| :: IsDecimalDigit(d[k])
    ensures DigitPrefixLength(d, 10) == |d|
  {
  }

  /** The decimal digits of `n` read back as `n`. */
  lemma ParseUnsignedOfDecimal(n: nat)
    ensures ParseUnsigned(NatToDecimal(n)) == Some(n)
  {
    var d := NatToDecimal(n);
    assert |d| >= 2 ==> IsDecimalDigit(d[1]);
    DecimalPrefixIsWhole(d);
    assert d[..|d|] == d;
    DecimalValue(n);
  }

  /** A string that starts with something other than whitespace is read from
      its first character. */
  lemma NoLeadingWhiteSpace(s: string)
    requires s != [] && !IsJsWhiteSpace(s[0])
    ensures s[LeadingJsWhiteSpace(s)..] == s
  {
    assert LeadingJsWhiteSpace(s) == 0;
  }

  /** Leading whitespace of a concatenation whose first part is all whitespace. */
  lemma {:induction false} LeadingAfterWhiteSpace(w: string, s: string)
    requires forall k | 0 <= k < |w| :: IsJsWhiteSpace(w[k])
    ensures LeadingJsWhiteSpace(w + s) == |w| + LeadingJsWhiteSpace(s)
  {
    if w != [] {
      assert (w + s)[0] == w[0];
      assert (w + s)[1..] == w[1..] + s;
      LeadingAfterWhiteSpace(w[1..], s);
    } else {
      assert w + s == s;
    }
  }

  /** `parseInt` reads whatever follows the leading whitespace. */
  lemma JsParseIntAfterWhiteSpace(u: string, t: string)
    requires u[LeadingJsWhiteSpace(u)..] == t
    ensures JsParseInt(u) == ParseSigned(t)
  {
  }

  lemma SuffixOfAppend(w: string, s: string, l: nat)
    requires l <= |s|
    ensures (w + s)[|w| + l..] == s[l..]
  {
  }

  /** `parseInt` ignores whitespace in front of the number. */
  lemma JsParseIntSkipsWhiteSpace(w: string, s: string)
    requires forall k | 0 <= k < |w| :: IsJsWhiteSpace(w[k])
    ensures JsParseInt(w + s) == JsParseInt(s)
  {
    var l := LeadingJsWhiteSpace(s);
    LeadingAfterWhiteSpace(w, s);
    SuffixOfAppend(w, s, l);
    JsParseIntAfterWhiteSpace(w + s, s[l..]);
    JsParseIntAfterWhiteSpace(s, s[l..]);
  }

  /** `parseInt` reads back exactly what `int.ToString()` writes. */
  lemma ParseIntOfIntToString(n: int)
    ensures JsParseInt(IntToString(n)) == Some(n)
  {
    var m: nat := if n < 0 then -n else n;
    var d := NatToDecimal(m);
    ParseUnsignedOfDecimal(m);
    if n < 0 {
      var s := "-" + d;
      assert s[1..] == d;
    } else {
      assert IsDecimalDigit(d[0]);
    }
  }

  // ---------------------------------------------------------------------------
  // Case-insensitive comparison

  function AsciiUpper(c: char): char
  {
    if 'a' <= c <= 'z' then (c as int - 32) as char else c
  }

  /** `string.Equals(a, b, StringComparison.OrdinalIgnoreCase)` with case folding
      restricted to ASCII letters. */
  predicate EqualsIgnoreCase(a: string, b: string)
  {
    |a| == |b| && forall k | 0 <= k < |a| :: AsciiUpper(a[k]) == AsciiUpper(b[k])
  }

  /** Case-insensitive equality is an equivalence: reflexive, symmetric and
      transitive. */
  lemma EqualsIgnoreCaseIsEquivalence(a: string, b: string, c: string)
    ensures EqualsIgnoreCase(a, a)
    ensures EqualsIgnoreCase(a, b) ==> EqualsIgnoreCase(b, a)
    ensures EqualsIgnoreCase(a, b) && EqualsIgnoreCase(b, c) ==> EqualsIgnoreCase(a, c)
  {
  }
}

=== FILE: validators.dfy ===
/** `CreateMenuValidator` and `UpdateMenuValidator`: the field rules every
    create and update body must pass before it reaches the service. Every rule
    runs (no rule stops the others), so one body can fail several rules, and
    one property can fail twice (a whitespace-only name over 255 units). */
module Validators {
  import opened Wrappers
  import opened Text
  import opened Dtos

  /** The properties of a create or update body that carry a rule. */
  datatype Field = Nome | Ordem | Icone | Descricao | Status

  /** The property name a failure reports (the C# member name). */
  function PropertyName(f: Field): (r: string)
    ensures r != "" && 'A' <= r[0] <= 'Z'
  {
    match f
    case Nome => "Nome"
    case Ordem => "Ordem"
    case Icone => "Icone"
    case Descricao => "Descricao"
    case Status => "Status"
  }

  /** Each validated property reports under its own name, so failures can be
      grouped by name without two properties sharing a group. */
  lemma PropertyNamesDistinct(f: Field, g: Field)
    ensures PropertyName(f) == PropertyName(g) <==> f == g
  {
    if f != g {
      assert PropertyName(f)[..2] != PropertyName(g)[..2] || |PropertyName(f)| != |PropertyName(g)|;
    }
  }

  /** One failed rule: the property it is about and the message it reports. */
  datatype ValidationFailure = ValidationFailure(property: Field, errorMessage: string)

  const NomeRequired: string := "O nome do menu é obrigatório"
  const NomeTooLong: string := "O nome do menu deve ter no máximo 255 caracteres"
  const OrdemNotPositive: string := "A ordem deve ser maior que zero"
  const IconeRequired: string := "O ícone do menu é obrigatório"
  const IconeTooLong: string := "O ícone deve ter no máximo 255 caracteres"
  const DescricaoTooLong: string := "A descrição deve ter no máximo 1000 caracteres"
  const StatusInvalid: string := "O status deve ser 'Ativo' ou 'Inativo'"

  const MaxNameLength: nat := 255
  const MaxDescriptionLength: nat := 1000

  // ---------------------------------------------------------------------------
  // What the rules accept, stated per field

  /** `NotEmpty().MaximumLength(255)`: not whitespace-only, at most 255 UTF-16 units. */
  predicate AcceptsRequiredText(s: string)
  {
    !IsBlank(s) && Utf16Length(s) <= MaxNameLength
  }

  /** `MaximumLength(1000).When(!IsNullOrEmpty)`: absent and empty are always fine. */
  predicate AcceptsDescription(d: Option<string>)
  {
    IsNullOrEmpty(d) || Utf16Length(d.value) <= MaxDescriptionLength
  }

  /** `Must(status == "Ativo" || status == "Inativo")`: exact, case-sensitive. */
  predicate AcceptsStatus(s: string)
  {
    s == StatusAtivo || s == StatusInativo
  }

  /** All five field rules hold. */
  predicate AcceptsFields(nome: string, ordem: int, icone: string, descricao: Option<string>, status: string)
  {
    && AcceptsRequiredText(nome)
    && ordem > 0
    && AcceptsRequiredText(icone)
    && AcceptsDescription(descricao)
    && AcceptsStatus(status)
  }

  /** Some failure in `fs` is about property `p`. */
  predicate FailsOn(fs: seq<ValidationFailure>, p: Field)
  {
    exists i | 0 <= i < |fs| :: fs[i].property == p
  }

  // ---------------------------------------------------------------------------
  // The rules, in declaration order

  function RequiredTextFailures(property: Field, s: string, required: string, tooLong: string): (fs: seq<ValidationFailure>)
    ensures fs == [] <==> AcceptsRequiredText(s)
    ensures forall i | 0 <= i < |fs| :: fs[i].property == property
  {
    (if IsBlank(s) then [ValidationFailure(property, required)] else [])
    + (if Utf16Length(s) > MaxNameLength then [ValidationFailure(property, tooLong)] else [])
  }

  /** The failures of the five rules for one body, in rule order. */
  function FieldFailures(nome: string, ordem: int, icone: string, descricao: Option<string>, status: string): (fs: seq<ValidationFailure>)
    ensures fs == [] <==> AcceptsFields(nome, ordem, icone, descricao, status)
    ensures FailsOn(fs, Nome) <==> !AcceptsRequiredText(nome)
    ensures FailsOn(fs, Ordem) <==> ordem <= 0
    ensures FailsOn(fs, Icone) <==> !AcceptsRequiredText(icone)
    ensures FailsOn(fs, Descricao) <==> !AcceptsDescription(descricao)
    ensures FailsOn(fs, Status) <==> !AcceptsStatus(status)
  {
    var n := RequiredTextFailures(Nome, nome, NomeRequired, NomeTooLong);
    var o := if ordem > 0 then [] else [ValidationFailure(Ordem, OrdemNotPositive)];
    var c := RequiredTextFailures(Icone, icone, IconeRequired, IconeTooLong);
    var d := if AcceptsDescription(descricao) then [] else [ValidationFailure(Descricao, DescricaoTooLong)];
    var s := if AcceptsStatus(status) then [] else [ValidationFailure(Status, StatusInvalid)];
    FailuresByField(n, o, c, d, s, Nome);
    FailuresByField(n, o, c, d, s, Ordem);
    FailuresByField(n, o, c, d, s, Icone);
    FailuresByField(n, o, c, d, s, Descricao);
    FailuresByField(n, o, c, d, s, Status);
    n + o + c + d + s
  }

  /** In the five rule groups laid end to end, a property fails exactly when
      its own group is non-empty. */
  lemma FailuresByField(n: seq<ValidationFailure>, o: seq<ValidationFailure>, c: seq<ValidationFailure>,
                        d: seq<ValidationFailure>, s: seq<ValidationFailure>, p: Field)
    requires forall i | 0 <= i < |n| :: n[i].property == Nome
    requires forall i | 0 <= i < |o| :: o[i].property == Ordem
    requires forall i | 0 <= i < |c| :: c[i].property == Icone
    requires forall i | 0 <= i < |d| :: d[i].property == Descricao
    requires forall i | 0 <= i < |s| :: s[i].property == Status
    ensures FailsOn(n + o + c + d + s, p) <==>
      || (p == Nome && n != []) || (p == Ordem && o != []) || (p == Icone && c != [])
      || (p == Descricao && d != []) || (p == Status && s != [])
  {
    FailsOnAppend(n, o);
    FailsOnAppend(n + o, c);
    FailsOnAppend(n + o + c, d);
    FailsOnAppend(n + o + c + d, s);
    OnlyAbout(n, Nome);
    OnlyAbout(o, Ordem);
    OnlyAbout(c, Icone);
    OnlyAbout(d, Descricao);
    OnlyAbout(s, Status);
  }

  lemma FailsOnAppend(a: seq<ValidationFailure>, b: seq<ValidationFailure>)
    ensures forall p :: FailsOn(a + b, p) <==> FailsOn(a, p) || FailsOn(b, p)
  {
    forall p | FailsOn(a + b, p)
      ensures FailsOn(a, p) || FailsOn(b, p)
    {
      var i :| 0 <= i < |a + b| && (a + b)[i].property == p;
      if i >= |a| { assert b[i - |a|].property == p; }
    }
    forall p | FailsOn(a, p)
      ensures FailsOn(a + b, p)
    {
      var i :| 0 <= i < |a| && a[i].property == p;
      assert (a + b)[i].property == p;
    }
    forall p | FailsOn(b, p)
      ensures FailsOn(a + b, p)
    {
      var i :| 0 <= i < |b| && b[i].property == p;
      assert (a + b)[|a| + i].property == p;
    }
  }

  lemma OnlyAbout(fs: seq<ValidationFailure>, property: Field)
    requires forall i | 0 <= i < |fs| :: fs[i].property == property
    ensures forall p :: FailsOn(fs, p) <==> fs != [] && p == property
  {
    if fs != [] {
      assert fs[0].property == property;
    }
  }


  /** `CreateMenuValidator`: the failures of a create body, empty when it is valid. */
  function ValidateCreate(d: CreateMenuDto): (fs: seq<ValidationFailure>)
    ensures fs == [] <==> AcceptsFields(d.nome, d.ordem, d.icone, d.descricao, d.status)
  {
    FieldFailures(d.nome, d.ordem, d.icone, d.descricao, d.status)
  }

  /** `UpdateMenuValidator`: the same rules, so it fails an update body exactly as
      `CreateMenuValidator` fails the same fields sent as a create body. */
  function ValidateUpdate(d: UpdateMenuDto): (fs: seq<ValidationFailure>)
    ensures fs == ValidateCreate(UpdateAsCreate(d))
    ensures fs == [] <==> AcceptsFields(d.nome, d.ordem, d.icone, d.descricao, d.status)
  {
    FieldFailures(d.nome, d.ordem, d.icone, d.descricao, d.status)
  }

  /** Boundary cases of the rules: 255 units pass and 256 fail, a name of spaces
      fails, an empty description passes whatever its limit, and the status
      comparison is case-sensitive. */
  lemma RuleBoundaries(s: string)
    requires |s| == 255 && forall k | 0 <= k < |s| :: s[k] == 'a'
    ensures AcceptsRequiredText(s)
    ensures !AcceptsRequiredText(s + "a")
    ensures !AcceptsRequiredText("   ")
    ensures AcceptsDescription(Some(""))
    ensures !AcceptsStatus("ativo")
  {
    assert !IsBlank(s) by { assert !IsDotNetWhiteSpace(s[0]); }
    assert Utf16Length(s) == 255;
    assert !IsBlank(s + "a") by { assert !IsDotNetWhiteSpace((s + "a")[0]); }
    assert Utf16Length(s + "a") == 256;
    assert IsBlank("   ");
  }
}

=== FILE: wrappers.dfy ===
/** Failure-compatible wrappers used throughout the model: `Option` stands for a
    nullable reference (`null` is `None`), `Result` for a call that either returns
    a value or throws. */
module Wrappers {

  datatype Option<+T> = None | Some(value: T) {

    /** The value, or `default` when absent (C#'s `??`). */
    function GetOr(default: T): T
    {
      match this
      case Some(v) => v
      case None => default
    }
  }

  datatype Result<+R, +E> = Success(value: R) | Failure(error: E) {

    predicate IsFailure()
    {
      Failure?
    }

    function PropagateFailure<U>(): Result<U, E>
      requires Failure?
    {
      Failure(error)
    }

    function Extract(): R
      requires Success?
    {
      value
    }
  }
}
